=== FILE: README.md ===
# Freelancer project dashboard — a Dafny model of its computations

The application is a dashboard for a freelancer's projects. Each project has a budget, a
status, a completion percentage, a due date and an optional list of expenses. The
dashboard shows a five-figure financial summary of the portfolio, the project list
(filtered and sorted), per-project and per-category finance figures, notifications and
settings. It stores projects and expenses in a hosted table store, and a server function
computes the same summary.

This project models the deterministic core of that application as pure Dafny functions
over immutable datatypes, and proves what the code promises:

- Types (types.dfy): the `Project`, `Expense` and `FinancialSummary` records, the
  four-valued status, and the all-zero summary.
- Summary (summary.dfy): the summary fold run on the client, with the reference
  definitions it is proved equal to, and its bounds.
- SummaryFunction (summary_function.dfy): the server function, with its request
  outcomes and its loop over stored rows. The loop is proved to give exactly the
  client's summary of the converted rows.
- Api (api.dfy): row-to-record conversion, project creation and update, and the
  expense insert, update and delete scoped by expense id and project id. It also holds
  the zero fallback of the summary request.
- ProjectState (project_state.dfy): the local list updates after each store call, the
  progress update that forces `completed` at 100 %, and the reload that falls back to
  the local summary.
- ProjectList (project_list.dfy): the status filter, and the five sort orders as a
  stable insertion sort with the source's comparator.
- Notifications (notifications.dfy): mark one, mark all, dismiss, and the unread count.
- FinancialChart (financial_chart.dfy) and ProjectDetail (project_detail.dfy): the
  totals, grouping by category, the bar-scale maximum, the palette index, and the
  detail page's figures and status label.
- ProgressUpdate, ResetPassword, Locales, Sidebar and Settings: the input
  validators, the translation helper, the active-route rule, and the settings reducers
  with theme resolution.
- Wrappers, Seqs and Strings: shared helpers. These are `Option`/`Result`;
  filter and sum over sequences; and prefix tests, substring search and
  first-occurrence replacement.

Modelling choices:

- Money is `real`. `Math.round(x * 100) / 100` is `Summary.Round2`, the exact rounding
  of a real to cents (half up).
- Dates and timestamps are integers (day numbers and time values). "Now" is always a
  parameter.
- Results that the source reads from the network become parameters, shaped as
  `Result` values. This covers the store's tables, the auth user, the summary endpoint's
  reply and the auth service's answer to a password change.
- The system dark-mode preference is also a parameter.

## Model

| member | source | states |
|---|---|---|
| Types.StatusNameRoundTrip | src/types/project.ts:12 | the four status names are distinct and parse back to their status; no other text is a status |
| Types.AllZeroIsZeroSummary | src/context/ProjectContext.tsx:32-38 | a summary is "all values zero" exactly when it is the initial summary |
| Summary.Round2 | src/context/ProjectContext.tsx:138-143 | the result is a whole number of cents, more than half a cent below the value and at most half a cent above it |
| Summary.Round2Unique | src/context/ProjectContext.tsx:138-143 | the only whole number of cents in that window is the rounded value, so rounding is exactly half-up to cents |
| Summary.Round2Cents | src/context/ProjectContext.tsx:138-143 | a value that already is a whole number of cents is unchanged by rounding |
| Summary.Round2Monotone | src/context/ProjectContext.tsx:138-143 | rounding to cents preserves order |
| Summary.Step | src/context/ProjectContext.tsx:109-136 | one forEach step adds every budget to the total, counts the project in exactly one of completed and active unless it is cancelled, moves pending and projected only for active projects, and raises projected by the budget or not at all |
| Summary.Accumulate | src/context/ProjectContext.tsx:109-136 | after the whole fold, completed plus active never exceeds the number of projects |
| Summary.RoundMoney | supabase/functions/financial-summary/index.ts:119-124 | each of the three money fields becomes the cent rounding of its unrounded value; both counts are untouched |
| Summary.Calculate | src/context/ProjectContext.tsx:100-146 | the forEach fold yields: the rounded sum of every budget; the rounded sum over pending/in-progress projects of budget × (1 − completion/100); the rounded sum of budgets of those due by now + 30; the number of completed projects; and the number of pending/in-progress ones |
| Summary.AccumulateIsReference | src/context/ProjectContext.tsx:109-136 | the one-pass loop equals the independent filter-and-sum definitions of all five figures |
| Summary.CalculateEmpty | src/context/ProjectContext.tsx:32-38 | an empty portfolio yields exactly the initial all-zero summary |
| Summary.StatusPartition | src/context/ProjectContext.tsx:114-120 | completed, active (pending or in-progress) and cancelled projects partition the list |
| Summary.CountsWithinTotal | src/context/ProjectContext.tsx:114-120 | completed + active never exceeds the number of projects; cancelled counts in neither |
| Summary.RemainingWithinBudget | src/context/ProjectContext.tsx:123-124 | with budget ≥ 0 and completion in 0..100 the prorated remainder lies between 0 and the budget |
| Summary.PendingPaymentsBounds | src/context/ProjectContext.tsx:116-124 | under the same conditions pending payments lie between 0 and the sum of active budgets |
| Summary.ProjectedWithinActiveBudget | src/context/ProjectContext.tsx:127-134 | projected earnings are between 0 and the sum of active budgets when budgets are non-negative |
| Summary.ProjectedMonotoneInNow | src/context/ProjectContext.tsx:127-134 | a later "now" never lowers projected earnings |
| Summary.CalculateBounds | src/context/ProjectContext.tsx:116-143 | the rounded pending and projected figures stay within 0 and the rounded active budget |
| SummaryFunction.ComputeSummary | supabase/functions/financial-summary/index.ts:80-124 | the server's loop over raw rows gives exactly the client's summary of the converted rows |
| SummaryFunction.StepIsServerIteration | supabase/functions/financial-summary/index.ts:89-116 | one client fold step, read on row columns, is the server's loop body: every budget is added, the status decides the counts, and active rows add the prorated remainder and, if due by now + 30, the budget |
| SummaryFunction.NextRow | supabase/functions/financial-summary/index.ts:88-117 | the fold over one more row is one more loop step, and expense rows never enter it |
| SummaryFunction.OwnedBy | supabase/functions/financial-summary/index.ts:50-53 | the function reads exactly the requesting user's rows: every row it reads is theirs, and every row of theirs is read |
| SummaryFunction.Handle | supabase/functions/financial-summary/index.ts:19-129 | OPTIONS gives "ok"; no user gives 401 Unauthorized; a failed projects query gives 400 with its message; a failed expenses query (asked only when the user has projects) gives 400; otherwise 200 with the summary of the user's projects |
| Api.ToProject | src/services/api.ts:75-90 | every column is copied to its field; a null description or category becomes ""; no expense list is attached |
| Api.ToProjects | src/services/api.ts:75 | the conversion keeps the number of rows |
| Api.ToProjectsAppend | src/services/api.ts:75 | the conversion keeps order: converting a list is converting each part, element by element |
| Api.ToExpense | src/services/api.ts:231-237 | id, description, amount and date are copied; a null category becomes "" |
| Api.ProjectExpenses | src/services/api.ts:221-237 | the result is the conversion of exactly the rows whose project id matches, in table order: every such row appears, and nothing else does |
| Api.ProjectExpensesAppend | src/services/api.ts:221-237 | fetching from two runs of rows gives the first run's expenses followed by the second's |
| Api.CreateProject | src/services/api.ts:121-169 | without a signed-in user the call fails; otherwise it appends exactly the row built from the draft, stamped with the user id and with completion 0 whatever the draft says, and returns the conversion of that stored row, which matches the draft |
| Api.CreateThenLookup | src/services/api.ts:121-212 | with a fresh id, the created project becomes the only row with that id, it converts to the returned record, and updating that record then succeeds |
| Api.UpdateProject | src/services/api.ts:171-212 | it succeeds exactly when one row has the id; it rewrites only that row and keeps the table's length |
| Api.UpdateProjectRoundTrip | src/services/api.ts:175-210 | the returned record agrees with the one sent on every editable field, keeps the id and creation time, is stamped with the update time, and has no expense list |
| Api.UpdateProjectIdempotent | src/services/api.ts:171-212 | after an update exactly one row still has the id, so re-sending the returned record succeeds and gives back the same record |
| Api.SameIdsSameMatches | src/services/api.ts:171-212 | two tables with the same id in every position have equally many rows with any id, so an update never changes how many rows match |
| Api.AddExpense | src/services/api.ts:240-267 | the insert fails when no project has the id; otherwise it appends one row and returns an expense that matches the draft |
| Api.UpdateExpense | src/services/api.ts:269-295 | it succeeds exactly when one row matches both expense id and project id; that row gets the payload written to it and every other row is kept |
| Api.DeleteExpense | src/services/api.ts:297-306 | it removes exactly the rows whose expense id and project id both match |
| Api.OtherProjectUntouched | src/services/api.ts:280-281 | a row of another project is never changed by an update nor removed by a delete, even with the same expense id |
| Api.FinancialSummaryOrZero | src/services/api.ts:309-328 | any failure of the summary request yields the all-zero summary; a reply is passed through |
| ProjectState.AddProject | src/context/ProjectContext.tsx:157 | the new project is appended and the others keep their places |
| ProjectState.AddProjectTotal | src/context/ProjectContext.tsx:157 | appending a project raises the total budget by its budget |
| ProjectState.ReplaceProject | src/context/ProjectContext.tsx:178-180 | only projects with the returned id are replaced; length, order and ids are preserved |
| ProjectState.ReplaceProjectIdempotent | src/context/ProjectContext.tsx:178-180 | replacing with the same record twice is the same as once |
| ProjectState.RemoveProject | src/context/ProjectContext.tsx:201 | no project with the id remains |
| ProjectState.RemoveProjectMembership | src/context/ProjectContext.tsx:201 | exactly the projects with other ids remain |
| ProjectState.RemoveAfterAdd | src/context/ProjectContext.tsx:157-201 | deleting a freshly added project with a new id restores the list |
| ProjectState.AddExpense | src/context/ProjectContext.tsx:227-236 | only the matching project changes, and only in its expense list, which gains the new expense at the end (an absent list becomes a one-element list); its expense total rises by the amount |
| ProjectState.ReplaceExpense | src/context/ProjectContext.tsx:265-267 | every expense with the edited id becomes the edited expense and every other one is kept; length and ids are preserved |
| ProjectState.DropAfterReplace | src/context/ProjectContext.tsx:265-300 | replacing an expense and then deleting its id leaves what deleting alone leaves |
| ProjectState.ReplaceExpenseIdempotent | src/context/ProjectContext.tsx:265-267 | replacing with the same expense twice is the same as once |
| ProjectState.UpdateExpense | src/context/ProjectContext.tsx:261-271 | only the matching project with an expense list changes, and only its id-matching expenses; a project without a list is left alone |
| ProjectState.DropExpense | src/context/ProjectContext.tsx:300 | exactly the expenses with other ids remain |
| ProjectState.RemoveExpense | src/context/ProjectContext.tsx:296-304 | only the matching project's list loses that expense id; every other project is untouched |
| ProjectState.RemoveAfterAddExpense | src/context/ProjectContext.tsx:227-304 | deleting a freshly added expense with a new id restores the projects |
| ProjectState.Find | src/context/ProjectContext.tsx:329 | the first project with the id, or none when no project has it |
| ProjectState.StatusAfterProgress | src/context/ProjectContext.tsx:332-334 | completion 100 forces `completed`; any other value keeps the status |
| ProjectState.ProgressRequest | src/context/ProjectContext.tsx:329-340 | an unknown id is an error; otherwise the request is the project with the new completion and the resulting status |
| ProjectState.UpdateProjectProgress | src/context/ProjectContext.tsx:324-345 | an unknown id is an error; on success the list keeps its length and ids, and projects with other ids are unchanged |
| ProjectState.ProgressUpdateOutcome | src/context/ProjectContext.tsx:324-345 | an unknown id fails with no change; after success the project carries the new completion, with status `completed` at 100 and the old status otherwise |
| ProjectState.Refresh | src/context/ProjectContext.tsx:66-97 | with no user nothing changes; a failed load keeps the projects and recomputes the summary from them; after a load, a successful non-zero reply from the endpoint is shown as it is, and a failed or all-zero one is replaced by the summary computed from the loaded projects |
| ProjectState.RefreshFallsBackToLocal | src/context/ProjectContext.tsx:72-85 | when the summary request fails, the dashboard shows the locally computed summary of the freshly loaded projects |
| ProjectList.FilterAllKeepsEverything | src/components/dashboard/ProjectList.tsx:92-94 | the filter "all" keeps every project |
| ProjectList.FilterByStatus | src/components/dashboard/ProjectList.tsx:92-95 | a status filter keeps exactly the projects with that status, in order; any other filter keeps none |
| ProjectList.FilterProjects | src/components/dashboard/ProjectList.tsx:92-95 | exactly the projects passing the filter remain, and none is added |
| ProjectList.Compare | src/components/dashboard/ProjectList.tsx:97-110 | each of the five comparators is the difference of a sort key, so each is a total preorder; an unknown order compares everything equal |
| ProjectList.Sort | src/components/dashboard/ProjectList.tsx:97 | sorting gives a permutation of its input that is ordered by the comparator |
| ProjectList.VisibleOrder | src/components/dashboard/ProjectList.tsx:98-108 | budget-high gives non-increasing budgets, budget-low non-decreasing; newest orders creation time descending, oldest ascending, deadline by due date ascending |
| ProjectList.Visible | src/components/dashboard/ProjectList.tsx:92-110 | the shown list is a rearrangement of the filtered list, ordered by the chosen sort key |
| ProjectList.SortStable | src/components/dashboard/ProjectList.tsx:97-110 | projects with equal sort keys keep their relative order |
| ProjectList.UnknownSortKeepsOrder | src/components/dashboard/ProjectList.tsx:109 | an unrecognised order leaves the filtered list as it is |
| ProjectList.EmptyStateIffNoMatch | src/components/dashboard/ProjectList.tsx:158 | the empty-state message shows exactly when no project passes the filter |
| Notifications.MarkAsRead | src/components/dashboard/NotificationList.tsx:64-70 | notifications with the id become read, all others are identical, and length and order are kept |
| Notifications.MarkAllAsRead | src/components/dashboard/NotificationList.tsx:72-76 | every notification becomes read and nothing else changes |
| Notifications.UnreadCount | src/components/dashboard/NotificationList.tsx:99 | the unread count is at most the number of notifications, and 0 exactly when every one is read |
| Notifications.UnreadCountAppend | src/components/dashboard/NotificationList.tsx:99 | the unread count of a list is the sum of the counts of its parts |
| Notifications.UnreadCountSingle | src/components/dashboard/NotificationList.tsx:99 | one notification counts 1 when unread and 0 when read, so the count is the number of unread items |
| Notifications.OneUnread | src/components/dashboard/NotificationList.tsx:99-111 | the count is 1 exactly when one notification, and no other, is unread |
| Notifications.HeaderKey | src/components/dashboard/NotificationList.tsx:109-111 | the singular header text is used exactly when one notification alone is unread, and the plural one otherwise |
| Notifications.ShowsMarkAll | src/components/dashboard/NotificationList.tsx:114 | the mark-all button shows exactly when some notification is unread |
| Notifications.MarkIdempotent | src/components/dashboard/NotificationList.tsx:64-76 | marking one or all as read twice equals doing it once |
| Notifications.MarkAllClearsUnread | src/components/dashboard/NotificationList.tsx:72-114 | after mark-all the unread count is 0, the button is hidden and the plural header is used |
| Notifications.MarkAsReadCount | src/components/dashboard/NotificationList.tsx:64-99 | marking one id read lowers the unread count by exactly the unread items with that id |
| Notifications.Delete | src/components/dashboard/NotificationList.tsx:78-82 | no notification with the id remains, and every notification with another id does |
| Notifications.DeleteAppend | src/components/dashboard/NotificationList.tsx:78-82 | dismissing from a list is dismissing from each of its parts in turn, so the rest keep their order and duplicates |
| Notifications.DeleteSingle | src/components/dashboard/NotificationList.tsx:78-82 | a single notification is dropped when it has the id and kept otherwise |
| Notifications.DeleteMembership | src/components/dashboard/NotificationList.tsx:78-82 | exactly the notifications with other ids remain |
| Notifications.DeleteCount | src/components/dashboard/NotificationList.tsx:78-99 | dismissing never raises the unread count or the length |
| FinancialChart.AddTo | src/components/dashboard/FinancialChart.tsx:143-146 | adding to a category keeps keys distinct, adds the key if new, raises only that key's value, and raises the group total by the amount |
| FinancialChart.Group | src/components/dashboard/FinancialChart.tsx:141-147 | a grouping never holds a category twice, and its categories are exactly those of the items |
| FinancialChart.GroupSums | src/components/dashboard/FinancialChart.tsx:141-169 | each category's value is the sum over exactly its items, and all values add up to the sum over all items |
| FinancialChart.IncomeGroups | src/components/dashboard/FinancialChart.tsx:141-147 | the income groups hold each project category once, give each the budget of exactly its projects, and add up to the total budget |
| FinancialChart.AllExpensesSum | src/components/dashboard/FinancialChart.tsx:58-61 | summing the flattened expense list is summing every project's expense total, an absent list counting 0 |
| FinancialChart.ExpenseGroups | src/components/dashboard/FinancialChart.tsx:219-230 | the expense groups hold each expense category once, give each the sum of exactly its expenses, and add up to the overview's total expenses |
| FinancialChart.TotalExpenses | src/components/dashboard/FinancialChart.tsx:58-61 | the overview's total expenses is the sum of every expense of every project, a project without a list counting 0 |
| FinancialChart.TotalEarned | src/components/dashboard/FinancialChart.tsx:62-65 | total earned is the sum of hours times rate over only the projects that record both, and is not negative when no hours or rate are |
| FinancialChart.EarnedFromBillable | src/components/dashboard/FinancialChart.tsx:62-65 | projects missing hours or a rate add nothing to total earned |
| FinancialChart.MaxValue | src/components/dashboard/FinancialChart.tsx:235 | the bar scale's maximum is at least 1 and at least every group value, and is 1 or one of them |
| FinancialChart.ColourIndex | src/components/dashboard/FinancialChart.tsx:177 | the palette index is below 6, equals the entry index for the first 6 entries, and differs from it by a multiple of 6 |
| ProjectDetail.ExpenseTotal | src/pages/ProjectDetail.tsx:58-59 | no expense list gives 0 |
| ProjectDetail.ExpenseTotalNonNegative | src/pages/ProjectDetail.tsx:58-59 | non-negative amounts give a non-negative total |
| ProjectDetail.ExpenseTotalAppend | src/pages/ProjectDetail.tsx:58-59 | appending an expense raises the total by its amount |
| ProjectDetail.Earned | src/pages/ProjectDetail.tsx:60 | hours × rate, and 0 when either is missing |
| ProjectDetail.NetProfit | src/pages/ProjectDetail.tsx:61 | net profit plus total expenses is the budget |
| ProjectDetail.NetProfitAppend | src/pages/ProjectDetail.tsx:58-61 | recording one more expense lowers net profit by exactly its amount |
| ProjectDetail.NetProfitIgnoresHours | src/pages/ProjectDetail.tsx:61 | net profit does not depend on hours or rate |
| ProjectDetail.StatusLabel | src/pages/ProjectDetail.tsx:71 | the label is the status name with its first letter upper-cased: same length, same tail, and a capital that is the upper-case form of the name's first letter |
| ProjectDetail.StatusLabelInjective | src/pages/ProjectDetail.tsx:71 | different statuses get different labels |
| ProgressUpdate.Slide | src/components/dashboard/ProgressUpdate.tsx:30-32 | a slider value within 0..100 leaves progress within 0..100 |
| ProgressUpdate.SlideTakesFirstValue | src/components/dashboard/ProgressUpdate.tsx:30-32 | the slider sets progress to its first reported value, whatever the previous value and any further values |
| ProgressUpdate.Typed | src/components/dashboard/ProgressUpdate.tsx:34-39 | a typed value is taken only if it parses and lies in 0..100; otherwise progress is unchanged |
| ProgressUpdate.Apply | src/components/dashboard/ProgressUpdate.tsx:30-39 | a slider move takes its first value; any edit keeps a value within 0..100 there, and an edit that changes the value leaves it within 0..100 |
| ProgressUpdate.Run | src/components/dashboard/ProgressUpdate.tsx:28-39 | starting within 0..100, progress stays there after any sequence of edits; from any start it is either never changed or ends within 0..100 |
| ProgressUpdate.RejectedInputsKeepProgress | src/components/dashboard/ProgressUpdate.tsx:36-38 | a run of rejected inputs leaves progress as it was |
| ProgressUpdate.Submit | src/components/dashboard/ProgressUpdate.tsx:41-45 | submit hands over the current progress and closes the dialog |
| ResetPassword.LinkError | src/pages/ResetPasswordPage.tsx:26-32 | the invalid-link error is set exactly when the hash contains no "access_token" |
| ResetPassword.EmptyHashIsInvalid | src/pages/ResetPasswordPage.tsx:29 | an empty hash is an invalid link |
| ResetPassword.Submit | src/pages/ResetPasswordPage.tsx:34-68 | the update is attempted exactly when the passwords are equal and at least 8 long; a mismatch or a short password gives its error; success navigates to login and clears the error; the link error never survives a submit |
| ResetPassword.MismatchCheckedFirst | src/pages/ResetPasswordPage.tsx:38-46 | a short mismatched pair reports the mismatch |
| ResetPassword.FailureHasMessage | src/pages/ResetPasswordPage.tsx:63-64 | a failed change always shows a non-empty message |
| Locales.Lookup | src/locales/index.ts:15 | a missing or empty entry gives the key itself; otherwise the entry |
| Locales.Substitute | src/locales/index.ts:17-21 | no parameters leave the text as it is; one parameter replaces the first occurrence of its placeholder; a text holding none of the placeholders comes back unchanged |
| Locales.Translate | src/locales/index.ts:11-24 | without parameters, or when the looked-up text holds none of their placeholders, the result is the looked-up text |
| Locales.NoParamsGivesLookup | src/locales/index.ts:17-23 | without parameters the table text is returned unchanged |
| Locales.SubstituteAppend | src/locales/index.ts:18-20 | parameters apply in order, each to the text the earlier ones left |
| Locales.AbsentPlaceholderUnchanged | src/locales/index.ts:19 | a parameter whose placeholder is absent leaves the text unchanged |
| Locales.OnlyFirstOccurrenceReplaced | src/locales/index.ts:19 | only the first placeholder is replaced; the rest of the text, later occurrences included, is kept |
| Sidebar.ActiveRoutes | src/components/dashboard/Sidebar.tsx:42-79 | an item is listed exactly when it is active, and at most one is |
| Sidebar.Active | src/components/dashboard/Sidebar.tsx:42-79 | the dashboard is active exactly on the path "/"; an active item's link is a prefix of the path, and any other section is active on every path under its link |
| Sidebar.DashboardOnlyAtRoot | src/components/dashboard/Sidebar.tsx:47-53 | a section page such as "/projects" starts with "/" yet does not highlight the dashboard, and does highlight its section |
| Sidebar.AtMostOneActive | src/components/dashboard/Sidebar.tsx:42-79 | two different items are never active together |
| Sidebar.SubPageKeepsSection | src/components/dashboard/Sidebar.tsx:53-77 | any path under a section's link keeps that section active |
| Sidebar.NewProjectPage | src/components/dashboard/Sidebar.tsx:53 | "/projects/new" activates Projects and nothing else |
| Sidebar.LogoutNeverHighlighted | src/components/dashboard/Sidebar.tsx:100-104 | only an active navigation item is highlighted; the logout link never is |
| Settings.Toggle | src/pages/SettingsPage.tsx:68-73 | the named switch flips, a missing one becomes on, and every other switch is unchanged |
| Settings.ToggleTwice | src/pages/SettingsPage.tsx:68-73 | flipping an existing switch twice restores the settings exactly |
| Settings.SetField | src/pages/SettingsPage.tsx:63-77 | a profile or display setter changes one key and leaves every other key unchanged |
| Settings.Resolve | src/pages/SettingsPage.tsx:52-59 | "system" resolves to dark exactly when the system prefers dark; other themes are used as given |
| Settings.ApplyTheme | src/pages/SettingsPage.tsx:48-61 | the resolved class is present and all unrelated classes are kept |
| Settings.ExactlyOneThemeClass | src/pages/SettingsPage.tsx:50-60 | for light, dark or system the root ends with exactly one of light and dark |
| Settings.ApplyThemeIdempotent | src/pages/SettingsPage.tsx:48-61 | applying the same theme again changes nothing |

## Left out

- IEEE-754 arithmetic. Money is exact `real`, so `Round2` is the mathematical
  half-up rounding to cents. Float artefacts of `x * 100` are not modelled.
- `parseFloat` and `parseInt`: the server loop reads budgets as already-parsed numbers,
  and the progress box receives an already-parsed `Option<int>`.
- Calendar arithmetic (`new Date`, `setDate(getDate() + 30)`): dates are day numbers,
  and "within 30 days" is `dueDate <= now + 30`. Time of day and month lengths are not
  modelled.
- The 60-second refresh interval, the async ordering of state updates, and the
  stale-closure use of `projects` in the error path of `refreshProjects`. These are
  timing, not state logic.
- The store's `order by created_at` and `order by date`: tables are kept in insertion
  order. Row-level security is not modelled, and neither is the missing `user_id`
  scoping of the project list query.
- The server function's 500 branch for thrown exceptions, its CORS headers, and
  reading its environment.
- Api.ToProject and Api.ToExpense: the status column is text in the store and is cast
  unchecked. The model keeps it as the four-valued status. `created_at`,
  `updated_at` and `completion_percentage` may be null in the store; the model takes
  them as present.
- Api.ProjectExpenses: keeps table order, not the store's `order by date`.
- Api.CreateProject, Api.UpdateProject, Api.UpdateExpense, Api.DeleteExpense: store
  errors other than the modelled ones (a missing user, a missing project, an id that
  matches no row) are not modelled, such as a lost connection or a rejected constraint.
  The source throws on them.
- FinancialChart.Group: a grouping lists categories in the order they were first
  added. `Object.entries` lists integer-like keys (such as "2024") first, in ascending
  order, so the model's legend order and `ColourIndex` differ from the chart's for
  such categories. The group values and totals do not depend on the order.
- The single-project fetch (`getProject`) uses the same conversion as `Api.ToProject`.
- The store-side project delete and its cascade to expenses belong to the schema,
  which is not part of this model.
- The summary request invokes the endpoint "project-summary", while the server
  function is deployed as "financial-summary". So the request fails, the zero fallback
  is returned, and `ProjectState.Refresh` recomputes locally. The model keeps the
  endpoint's reply as a parameter, so both paths are covered.
- Locales.Lookup and the substitution do not model `$` patterns in replacement
  strings, nor the ordering of integer-like keys in `Object.entries`.
  Parameters are a sequence in the order they are applied, with numbers already
  turned to text.
- Settings.ApplyTheme does not model the exception `classList.add("")` raises for an
  empty theme.
- ResetPassword.Submit: the length test counts characters, not UTF-16 code units. The
  loading flag is left out, since it ends where it began.
- The save handlers of the settings page only show a message and leave all state as
  it was, so there is nothing to model.
- ProjectList.Sort returns a new sequence, so "the input array is not mutated" holds
  by value semantics.
- Canvas drawing, JSX, toasts, dialogs and routing.

=== FILE: api.dfy ===
/** The service layer between the application and its hosted store: conversions
    between stored rows (snake_case columns, nullable text) and application records
    (camelCase fields, empty-string defaults), the insert and update payloads, the
    row scoping of expense updates and deletes, and the summary fallback. Tables are
    sequences of rows; the store's row ids, timestamps and failures are inputs. */
module Api {
  import opened Wrappers
  import opened Types
  import Seqs

  /** A row of the `projects` table, fields named after its columns. */
  datatype ProjectRow = ProjectRow(
    id: string,
    user_id: string,
    title: string,
    client: string,
    description: Option<string>,
    start_date: int,
    due_date: int,
    budget: real,
    hourly_rate: Option<real>,
    hours_worked: Option<real>,
    status: Status,
    completion_percentage: real,
    category: Option<string>,
    created_at: int,
    updated_at: int)

  /** A row of the `expenses` table. */
  datatype ExpenseRow = ExpenseRow(
    id: string,
    project_id: string,
    description: string,
    amount: real,
    date: int,
    category: Option<string>,
    created_at: int,
    updated_at: int)

  /** What the create form supplies: a project without id, timestamps or completion. */
  datatype ProjectDraft = ProjectDraft(
    title: string,
    client: string,
    description: string,
    startDate: int,
    dueDate: int,
    budget: real,
    hourlyRate: Option<real>,
    hoursWorked: Option<real>,
    status: Status,
    category: string)

  /** What the expense form supplies: an expense without id. */
  datatype ExpenseDraft = ExpenseDraft(
    description: string,
    amount: real,
    date: int,
    category: string)

  /** The column values `updateProject` sends. */
  datatype ProjectUpdate = ProjectUpdate(
    title: string,
    client: string,
    description: string,
    start_date: int,
    due_date: int,
    budget: real,
    hourly_rate: Option<real>,
    hours_worked: Option<real>,
    status: Status,
    completion_percentage: real,
    category: string,
    updated_at: int)

  /** The column values `updateExpense` sends. */
  datatype ExpenseUpdate = ExpenseUpdate(
    description: string,
    amount: real,
    date: int,
    category: string,
    updated_at: int)

  // Row to record.

  /** A stored project as the application sees it: a null description or category
      becomes "", and the expense list is not loaded. */
  function ToProject(r: ProjectRow): (p: Project)
    ensures p.id == r.id && p.title == r.title && p.client == r.client
    ensures p.startDate == r.start_date && p.dueDate == r.due_date && p.budget == r.budget
    ensures p.hourlyRate == r.hourly_rate && p.hoursWorked == r.hours_worked
    ensures p.status == r.status && p.completionPercentage == r.completion_percentage
    ensures p.createdAt == r.created_at && p.updatedAt == r.updated_at
    ensures p.description == (if r.description.Some? then r.description.value else "")
    ensures p.category == (if r.category.Some? then r.category.value else "")
    ensures p.expenses.None?
  {
    Project(
      r.id, r.title, r.client, r.description.GetOr(""), r.start_date, r.due_date,
      r.budget, r.hourly_rate, r.hours_worked, None, r.status, r.completion_percentage,
      r.category.GetOr(""), r.created_at, r.updated_at)
  }

  /** `getProjects`: every row converted, in the order the store returned them. */
  function ToProjects(rows: seq<ProjectRow>): (ps: seq<Project>)
    ensures |ps| == |rows|
  {
    seq(|rows|, i requires 0 <= i < |rows| => ToProject(rows[i]))
  }

  /** The conversion keeps the rows' order: converting a list is converting its parts. */
  lemma ToProjectsAppend(a: seq<ProjectRow>, b: seq<ProjectRow>)
    ensures ToProjects(a + b) == ToProjects(a) + ToProjects(b)
    ensures forall i :: 0 <= i < |a| ==> ToProjects(a + b)[i] == ToProject(a[i])
  {
    assert forall i :: 0 <= i < |a + b| ==> ToProjects(a + b)[i] == (ToProjects(a) + ToProjects(b))[i];
  }

  /** A stored expense as the application sees it: a null category becomes "". */
  function ToExpense(r: ExpenseRow): (e: Expense)
    ensures e.id == r.id && e.description == r.description
    ensures e.amount == r.amount && e.date == r.date
    ensures e.category == (if r.category.Some? then r.category.value else "")
  {
    Expense(r.id, r.description, r.amount, r.date, r.category.GetOr(""))
  }

  /** The test `project_id = projectId`. */
  function OfProject(projectId: string): ExpenseRow -> bool {
    (r: ExpenseRow) => r.project_id == projectId
  }

  function ToExpenses(rows: seq<ExpenseRow>): (es: seq<Expense>)
    ensures |es| == |rows|
    ensures forall i :: 0 <= i < |rows| ==> es[i] == ToExpense(rows[i])
  {
    seq(|rows|, i requires 0 <= i < |rows| => ToExpense(rows[i]))
  }

  /** `getProjectExpenses`: the rows of one project, converted, in store order. */
  function ProjectExpenses(table: seq<ExpenseRow>, projectId: string): (es: seq<Expense>)
    ensures es == ToExpenses(Seqs.Filter(table, OfProject(projectId)))
    ensures |es| <= |table|
    ensures forall i :: 0 <= i < |table| && table[i].project_id == projectId ==> ToExpense(table[i]) in es
    ensures forall x :: x in es ==>
              exists i :: 0 <= i < |table| && table[i].project_id == projectId && x == ToExpense(table[i])
  {
    if |table| == 0 then []
    else
      var rest := ProjectExpenses(table[1..], projectId);
      assert forall j :: 0 <= j < |table| - 1 ==> table[1..][j] == table[j + 1];
      var r := (if table[0].project_id == projectId then [ToExpense(table[0])] else []) + rest;
      assert r == ToExpenses(Seqs.Filter(table, OfProject(projectId)));
      r
  }

  /** Fetching from two runs of rows gives the first run's expenses followed by the
      second's: the store's row order is kept. */
  lemma {:induction false} ProjectExpensesAppend(a: seq<ExpenseRow>, b: seq<ExpenseRow>, projectId: string)
    ensures ProjectExpenses(a + b, projectId) == ProjectExpenses(a, projectId) + ProjectExpenses(b, projectId)
    decreases |a|
  {
    if |a| == 0 {
      assert a + b == b;
    } else {
      assert (a + b)[0] == a[0];
      assert (a + b)[1..] == a[1..] + b;
      ProjectExpensesAppend(a[1..], b, projectId);
    }
  }

  // Projects: create and update.

  /** The row the store creates from `createProject`'s insert: completion is always 0,
      the owner is the signed-in user, and the store assigns id and timestamps. */
  function InsertedProject(userId: string, d: ProjectDraft, id: string, stamp: int): ProjectRow {
    ProjectRow(
      id, userId, d.title, d.client, Some(d.description), d.startDate, d.dueDate, d.budget,
      d.hourlyRate, d.hoursWorked, d.status, 0.0, Some(d.category), stamp, stamp)
  }

  /** `createProject`: fails when no user is signed in; otherwise appends the new row
      and returns it as a record. */
  function CreateProject(table: seq<ProjectRow>, user: Option<string>, d: ProjectDraft, id: string, stamp: int)
    : (r: Result<(seq<ProjectRow>, Project), string>)
    ensures user.None? <==> r.Failure?
    ensures r.Success? ==> |r.value.0| == |table| + 1 && r.value.0[..|table|] == table
    ensures r.Success? ==> r.value.0 == table + [InsertedProject(user.value, d, id, stamp)]
    ensures r.Success? ==> r.value.0[|table|].user_id == user.value
    ensures r.Success? ==> r.value.0[|table|].completion_percentage == 0.0
    ensures r.Success? ==> r.value.1 == ToProject(r.value.0[|table|])
    ensures r.Success? ==> ProjectMatchesDraft(r.value.1, d)
    ensures r.Success? ==> r.value.1.id == id && r.value.1.completionPercentage == 0.0
  {
    match user
    case None => Failure("not signed in")
    case Some(uid) =>
      var row := InsertedProject(uid, d, id, stamp);
      assert (table + [row])[..|table|] == table;
      Success((table + [row], ToProject(row)))
  }

  /** With a fresh id, the created project is the one and only row the store then holds
      under that id, so an update of the returned record addresses exactly it. */
  lemma {:induction false} CreateThenLookup(table: seq<ProjectRow>, uid: string, d: ProjectDraft, id: string, stamp: int)
    requires forall i :: 0 <= i < |table| ==> table[i].id != id
    ensures var r := CreateProject(table, Some(uid), d, id, stamp);
      && ProjectRowsWithId(r.value.0, id) == [InsertedProject(uid, d, id, stamp)]
      && ToProject(ProjectRowsWithId(r.value.0, id)[0]) == r.value.1
      && UpdateProject(r.value.0, r.value.1, stamp).Success?
  {
    var row := InsertedProject(uid, d, id, stamp);
    Seqs.FilterAppend(table, [row], (r: ProjectRow) => r.id == id);
    Seqs.FilterNone(table, (r: ProjectRow) => r.id == id);
    assert Seqs.Filter([row], (r: ProjectRow) => r.id == id) == [row] by {
      assert [row][1..] == [];
    }
  }

  /** The record carries every field of the draft. */
  predicate ProjectMatchesDraft(p: Project, d: ProjectDraft) {
    p.title == d.title && p.client == d.client && p.description == d.description
    && p.startDate == d.startDate && p.dueDate == d.dueDate && p.budget == d.budget
    && p.hourlyRate == d.hourlyRate && p.hoursWorked == d.hoursWorked
    && p.status == d.status && p.category == d.category
  }

  /** The payload `updateProject` sends for a record, stamped with the current time. */
  function UpdateOf(p: Project, now: int): ProjectUpdate {
    ProjectUpdate(
      p.title, p.client, p.description, p.startDate, p.dueDate, p.budget, p.hourlyRate,
      p.hoursWorked, p.status, p.completionPercentage, p.category, now)
  }

  /** A stored row after the update payload is written to it. */
  function ApplyProjectUpdate(r: ProjectRow, u: ProjectUpdate): ProjectRow {
    r.(title := u.title, client := u.client, description := Some(u.description),
       start_date := u.start_date, due_date := u.due_date, budget := u.budget,
       hourly_rate := u.hourly_rate, hours_worked := u.hours_worked, status := u.status,
       completion_percentage := u.completion_percentage, category := Some(u.category),
       updated_at := u.updated_at)
  }

  function ProjectRowsWithId(table: seq<ProjectRow>, id: string): seq<ProjectRow> {
    Seqs.Filter(table, (r: ProjectRow) => r.id == id)
  }

  /** `updateProject`: writes the payload to the rows with the record's id and returns
      the single updated row as a record; fails unless exactly one row has that id. */
  function UpdateProject(table: seq<ProjectRow>, p: Project, now: int)
    : (r: Result<(seq<ProjectRow>, Project), string>)
    ensures r.Success? <==> |ProjectRowsWithId(table, p.id)| == 1
    ensures r.Success? ==> |r.value.0| == |table|
    ensures r.Success? ==> forall i :: 0 <= i < |table| && table[i].id != p.id ==> r.value.0[i] == table[i]
    ensures r.Success? ==> forall i :: 0 <= i < |table| && table[i].id == p.id ==>
              r.value.0[i] == ApplyProjectUpdate(table[i], UpdateOf(p, now))
  {
    var matches := ProjectRowsWithId(table, p.id);
    if |matches| != 1 then Failure("project not found")
    else
      var u := UpdateOf(p, now);
      var table' := seq(|table|, i requires 0 <= i < |table| =>
        if table[i].id == p.id then ApplyProjectUpdate(table[i], u) else table[i]);
      Success((table', ToProject(ApplyProjectUpdate(matches[0], u))))
  }

  /** The record `updateProject` returns agrees with the one sent on every editable
      field, keeps its id, takes the store's creation time, is stamped `now`, and
      comes back without an expense list. */
  lemma UpdateProjectRoundTrip(table: seq<ProjectRow>, p: Project, now: int)
    requires |ProjectRowsWithId(table, p.id)| == 1
    ensures UpdateProject(table, p, now).Success?
    ensures var q := UpdateProject(table, p, now).value.1;
      && q.id == p.id && q.title == p.title && q.client == p.client
      && q.description == p.description && q.startDate == p.startDate
      && q.dueDate == p.dueDate && q.budget == p.budget && q.hourlyRate == p.hourlyRate
      && q.hoursWorked == p.hoursWorked && q.status == p.status
      && q.completionPercentage == p.completionPercentage && q.category == p.category
      && q.updatedAt == now && q.expenses.None?
      && q.createdAt == ProjectRowsWithId(table, p.id)[0].created_at
  {
    var m := ProjectRowsWithId(table, p.id);
    assert m[0].id == p.id;
  }

  /** Two tables with the same id in every position have as many rows with any given id. */
  lemma {:induction false} SameIdsSameMatches(a: seq<ProjectRow>, b: seq<ProjectRow>, id: string)
    requires |a| == |b|
    requires forall i :: 0 <= i < |a| ==> a[i].id == b[i].id
    ensures |ProjectRowsWithId(a, id)| == |ProjectRowsWithId(b, id)|
    decreases |a|
  {
    if |a| > 0 {
      SameIdsSameMatches(a[1..], b[1..], id);
    }
  }

  /** Re-sending a record the store just returned changes nothing but the timestamp:
      the update leaves exactly one row with that id, so the second update succeeds
      and returns the record unchanged. */
  lemma UpdateProjectIdempotent(table: seq<ProjectRow>, p: Project, now: int)
    requires |ProjectRowsWithId(table, p.id)| == 1
    ensures var (t1, q) := UpdateProject(table, p, now).value;
      UpdateProject(t1, q, now).Success? && UpdateProject(t1, q, now).value.1 == q
  {
    var (t1, q) := UpdateProject(table, p, now).value;
    UpdateProjectRoundTrip(table, p, now);
    SameIdsSameMatches(t1, table, p.id);
    assert |ProjectRowsWithId(t1, q.id)| == 1;
    UpdateProjectRoundTrip(t1, q, now);
    var m := ProjectRowsWithId(table, p.id);
    var m1 := ProjectRowsWithId(t1, q.id);
    var i :| 0 <= i < |t1| && t1[i] == m1[0] by {
      Seqs.FilterMembership(t1, (r: ProjectRow) => r.id == q.id, m1[0]);
    }
    var j :| 0 <= j < |table| && table[j] == m[0] by {
      Seqs.FilterMembership(table, (r: ProjectRow) => r.id == p.id, m[0]);
    }
    assert t1[i].created_at == table[i].created_at;
    assert table[i] in ProjectRowsWithId(table, p.id) by {
      Seqs.FilterMembership(table, (r: ProjectRow) => r.id == p.id, table[i]);
    }
  }

  // Expenses: add, update and delete, scoped by project.

  /** The row the store creates from `addExpense`'s insert. */
  function InsertedExpense(projectId: string, d: ExpenseDraft, id: string, stamp: int): ExpenseRow {
    ExpenseRow(id, projectId, d.description, d.amount, d.date, Some(d.category), stamp, stamp)
  }

  /** `addExpense`: the insert fails when no project has the given id (the foreign key
      of `expenses.project_id`); otherwise the row is appended and returned as a record. */
  function AddExpense(projects: seq<ProjectRow>, table: seq<ExpenseRow>, projectId: string,
                      d: ExpenseDraft, id: string, stamp: int)
    : (r: Result<(seq<ExpenseRow>, Expense), string>)
    ensures r.Success? <==> exists i :: 0 <= i < |projects| && projects[i].id == projectId
    ensures r.Success? ==> r.value.0 == table + [InsertedExpense(projectId, d, id, stamp)]
    ensures r.Success? ==> var e := r.value.1;
      e.id == id && e.description == d.description && e.amount == d.amount
      && e.date == d.date && e.category == d.category
  {
    if |ProjectRowsWithId(projects, projectId)| == 0 then
      NoMatchingRow(projects, projectId);
      Failure("project does not exist")
    else
      Seqs.FilterMembership(projects, (r: ProjectRow) => r.id == projectId,
                            ProjectRowsWithId(projects, projectId)[0]);
      var row := InsertedExpense(projectId, d, id, stamp);
      Success((table + [row], ToExpense(row)))
  }

  lemma NoMatchingRow(projects: seq<ProjectRow>, projectId: string)
    requires |ProjectRowsWithId(projects, projectId)| == 0
    ensures forall i :: 0 <= i < |projects| ==> projects[i].id != projectId
  {
    forall i | 0 <= i < |projects|
      ensures projects[i].id != projectId
    {
      Seqs.FilterMembership(projects, (r: ProjectRow) => r.id == projectId, projects[i]);
    }
  }

  /** The row an expense update or delete addresses: same id AND same project. */
  predicate Addressed(r: ExpenseRow, projectId: string, expenseId: string) {
    r.id == expenseId && r.project_id == projectId
  }

  function AddressedRows(table: seq<ExpenseRow>, projectId: string, expenseId: string): seq<ExpenseRow> {
    Seqs.Filter(table, (r: ExpenseRow) => Addressed(r, projectId, expenseId))
  }

  function ApplyExpenseUpdate(r: ExpenseRow, u: ExpenseUpdate): ExpenseRow {
    r.(description := u.description, amount := u.amount, date := u.date,
       category := Some(u.category), updated_at := u.updated_at)
  }

  /** `updateExpense`: writes the payload only to the row whose id and project both
      match, and fails unless exactly one row does. */
  function UpdateExpense(table: seq<ExpenseRow>, projectId: string, e: Expense, now: int)
    : (r: Result<(seq<ExpenseRow>, Expense), string>)
    ensures r.Success? <==> |AddressedRows(table, projectId, e.id)| == 1
    ensures r.Success? ==> |r.value.0| == |table|
    ensures r.Success? ==> forall i :: 0 <= i < |table| && !Addressed(table[i], projectId, e.id) ==>
              r.value.0[i] == table[i]
    ensures r.Success? ==> forall i :: 0 <= i < |table| && Addressed(table[i], projectId, e.id) ==>
              r.value.0[i] == ApplyExpenseUpdate(table[i], ExpenseUpdate(e.description, e.amount, e.date, e.category, now))
    ensures r.Success? ==> var x := r.value.1;
      x.id == e.id && x.description == e.description && x.amount == e.amount
      && x.date == e.date && x.category == e.category
  {
    var matches := AddressedRows(table, projectId, e.id);
    if |matches| != 1 then Failure("expense not found")
    else
      var u := ExpenseUpdate(e.description, e.amount, e.date, e.category, now);
      var table' := seq(|table|, i requires 0 <= i < |table| =>
        if Addressed(table[i], projectId, e.id) then ApplyExpenseUpdate(table[i], u) else table[i]);
      assert matches[0].id == e.id;
      Success((table', ToExpense(ApplyExpenseUpdate(matches[0], u))))
  }

  /** `deleteExpense`: removes exactly the rows whose id and project both match;
      deleting nothing is not an error. */
  function DeleteExpense(table: seq<ExpenseRow>, projectId: string, expenseId: string)
    : (r: seq<ExpenseRow>)
    ensures forall x :: x in r <==> x in table && !Addressed(x, projectId, expenseId)
  {
    var r := Seqs.Filter(table, (x: ExpenseRow) => !Addressed(x, projectId, expenseId));
    assert forall x :: x in r <==> x in table && !Addressed(x, projectId, expenseId) by {
      forall x
        ensures x in r <==> x in table && !Addressed(x, projectId, expenseId)
      {
        Seqs.FilterMembership(table, (x: ExpenseRow) => !Addressed(x, projectId, expenseId), x);
      }
    }
    r
  }

  /** An expense of another project is never touched by an update or delete, even
      when it shares the id. */
  lemma OtherProjectUntouched(table: seq<ExpenseRow>, projectId: string, e: Expense, now: int, i: int)
    requires 0 <= i < |table| && table[i].project_id != projectId
    requires UpdateExpense(table, projectId, e, now).Success?
    ensures UpdateExpense(table, projectId, e, now).value.0[i] == table[i]
    ensures table[i] in DeleteExpense(table, projectId, e.id)
  {
  }

  // The summary endpoint.

  /** `getFinancialSummary`: the endpoint's summary, or the all-zero summary on any failure. */
  function FinancialSummaryOrZero(response: Result<FinancialSummary, string>): (s: FinancialSummary)
    ensures response.Failure? ==> AllZero(s)
    ensures response.Success? ==> s == response.value
  {
    match response
    case Success(v) => v
    case Failure(_) => ZeroSummary
  }
}

=== FILE: financial_chart.dfy ===
/** The numbers behind the finance charts: the overview totals, the grouping of budgets
    and of expense amounts by category, the bar scale's maximum and the palette index.
    A grouping is an association list, one entry per key, in the order the keys were
    first added. */
module FinancialChart {
  import opened Types
  import Seqs
  import Summary
  import ProjectDetail

  /** The number of colours in the palette. */
  const PaletteSize: nat := 6

  type Groups = seq<(string, real)>

  // Overview totals.

  function TotalBudget(ps: seq<Project>): real {
    Summary.TotalBudget(ps)
  }

  /** The sum of every project's expense total: the same as summing every expense of
      every project, a project without a list counting 0. */
  function TotalExpenses(ps: seq<Project>): (r: real)
    ensures r == Seqs.Sum(AllExpenses(ps), ProjectDetail.AmountOf)
  {
    AllExpensesSum(ps);
    Seqs.Sum(ps, ProjectDetail.ExpenseTotal)
  }

  /** A project that records both hours and a rate. */
  predicate Billable(p: Project) {
    p.hoursWorked.Some? && p.hourlyRate.Some?
  }

  /** No project records negative hours or a negative rate. */
  predicate NoNegativeRates(ps: seq<Project>) {
    forall i :: 0 <= i < |ps| ==> 0.0 <= ps[i].hoursWorked.GetOr(0.0) && 0.0 <= ps[i].hourlyRate.GetOr(0.0)
  }

  /** The sum of hours times rate: only projects recording both contribute, and with
      no negative hours or rates the total is not negative. */
  function TotalEarned(ps: seq<Project>): (r: real)
    ensures r == Seqs.Sum(Seqs.Filter(ps, Billable), ProjectDetail.Earned)
    ensures NoNegativeRates(ps) ==> 0.0 <= r
  {
    EarnedFromBillable(ps);
    EarnedNonNegative(ps);
    Seqs.Sum(ps, ProjectDetail.Earned)
  }

  lemma EarnedNonNegative(ps: seq<Project>)
    ensures NoNegativeRates(ps) ==> 0.0 <= Seqs.Sum(ps, ProjectDetail.Earned)
  {
    if NoNegativeRates(ps) {
      forall i | 0 <= i < |ps|
        ensures 0.0 <= ProjectDetail.Earned(ps[i])
      {
        NonNegativeProduct(ps[i].hoursWorked.GetOr(0.0), ps[i].hourlyRate.GetOr(0.0));
      }
      Seqs.SumNonNegative(ps, ProjectDetail.Earned);
    }
  }

  lemma NonNegativeProduct(x: real, y: real)
    requires 0.0 <= x && 0.0 <= y
    ensures 0.0 <= x * y
  {
  }

  /** Projects without both hours and a rate earn nothing, so dropping them leaves the
      total unchanged. */
  lemma {:induction false} EarnedFromBillable(ps: seq<Project>)
    ensures Seqs.Sum(ps, ProjectDetail.Earned) == Seqs.Sum(Seqs.Filter(ps, Billable), ProjectDetail.Earned)
  {
    if |ps| > 0 {
      EarnedFromBillable(ps[1..]);
      var rest := Seqs.Filter(ps[1..], Billable);
      if Billable(ps[0]) {
        assert Seqs.Filter(ps, Billable) == [ps[0]] + rest;
        assert ([ps[0]] + rest)[1..] == rest;
      } else {
        assert Seqs.Filter(ps, Billable) == rest;
        assert ProjectDetail.Earned(ps[0]) == 0.0;
      }
    }
  }

  // Grouping.

  function Keys(g: Groups): seq<string> {
    seq(|g|, i requires 0 <= i < |g| => g[i].0)
  }

  predicate DistinctKeys(g: Groups) {
    forall i, j :: 0 <= i < j < |g| ==> g[i].0 != g[j].0
  }

  /** The value recorded for `key`, or 0 when it has none. */
  function ValueOf(g: Groups, key: string): real {
    if |g| == 0 then 0.0
    else if g[0].0 == key then g[0].1
    else ValueOf(g[1..], key)
  }

  function PairValue(e: (string, real)): real {
    e.1
  }

  /** The sum of all recorded values (`Object.values(categories).reduce(+)`). */
  function GroupTotal(g: Groups): real {
    Seqs.Sum(g, PairValue)
  }

  function KeySet(g: Groups): set<string> {
    set i | 0 <= i < |g| :: g[i].0
  }

  lemma KeySetCons(x: (string, real), g: Groups)
    ensures KeySet([x] + g) == {x.0} + KeySet(g)
  {
    var r := [x] + g;
    forall k | k in KeySet(r)
      ensures k in {x.0} + KeySet(g)
    {
      var i :| 0 <= i < |r| && r[i].0 == k;
      if i > 0 {
        assert r[i] == g[i - 1];
      }
    }
    forall k | k in KeySet(g)
      ensures k in KeySet(r)
    {
      var i :| 0 <= i < |g| && g[i].0 == k;
      assert r[i + 1] == g[i];
    }
    assert r[0] == x;
  }

  /** `if (!categories[key]) categories[key] = 0; categories[key] += amount;` */
  function AddTo(g: Groups, key: string, amount: real): (r: Groups)
    requires DistinctKeys(g)
    ensures DistinctKeys(r)
    ensures KeySet(r) == KeySet(g) + {key}
    ensures forall k :: ValueOf(r, k) == ValueOf(g, k) + (if k == key then amount else 0.0)
    ensures GroupTotal(r) == GroupTotal(g) + amount
  {
    if |g| == 0 then
      assert [(key, amount)][1..] == [];
      KeySetCons((key, amount), []);
      assert [(key, amount)] + [] == [(key, amount)];
      [(key, amount)]
    else if g[0].0 == key then
      var r := [(key, g[0].1 + amount)] + g[1..];
      assert r[1..] == g[1..];
      assert KeySet(r) == KeySet(g) by {
        assert forall i :: 0 <= i < |g| ==> r[i].0 == g[i].0;
      }
      r
    else
      var rest := AddTo(g[1..], key, amount);
      var r := [g[0]] + rest;
      assert r[1..] == rest;
      assert g == [g[0]] + g[1..];
      KeySetCons(g[0], g[1..]);
      KeySetCons(g[0], rest);
      assert g[0].0 !in KeySet(g[1..]);
      assert forall j :: 0 <= j < |rest| ==> rest[j].0 in KeySet(rest);
      r
  }

  /** One `forEach` over `xs`, adding `amount(x)` under `key(x)`. */
  function Group<T>(xs: seq<T>, key: T -> string, amount: T -> real): (g: Groups)
    ensures DistinctKeys(g)
    ensures KeySet(g) == set i | 0 <= i < |xs| :: key(xs[i])
  {
    if |xs| == 0 then []
    else
      var init := xs[..|xs| - 1];
      assert (set i | 0 <= i < |xs| :: key(xs[i]))
             == (set i | 0 <= i < |init| :: key(init[i])) + {key(xs[|xs| - 1])} by {
        assert forall i :: 0 <= i < |init| ==> init[i] == xs[i];
      }
      AddTo(Group(init, key, amount), key(xs[|xs| - 1]), amount(xs[|xs| - 1]))
  }

  function KeyIs<T>(key: T -> string, k: string): T -> bool {
    (x: T) => key(x) == k
  }

  /** Each category's value is the sum over exactly the items of that category, and the
      values together add up to the sum over all items. */
  lemma {:induction false} GroupSums<T>(xs: seq<T>, key: T -> string, amount: T -> real, k: string)
    ensures ValueOf(Group(xs, key, amount), k) == Seqs.Sum(Seqs.Filter(xs, KeyIs(key, k)), amount)
    ensures GroupTotal(Group(xs, key, amount)) == Seqs.Sum(xs, amount)
  {
    if |xs| > 0 {
      var init, x := xs[..|xs| - 1], xs[|xs| - 1];
      assert xs == init + [x];
      GroupSums(init, key, amount, k);
      Seqs.SumAppend(init, [x], amount);
      Seqs.FilterAppend(init, [x], KeyIs(key, k));
      Seqs.SumAppend(Seqs.Filter(init, KeyIs(key, k)), Seqs.Filter([x], KeyIs(key, k)), amount);
    }
  }

  function CategoryOf(p: Project): string {
    p.category
  }

  function ExpenseCategory(e: Expense): string {
    e.category
  }

  /** The income chart: project budgets by project category. Each category's value is
      the budget of exactly its projects, and the values add up to the total budget. */
  function IncomeGroups(ps: seq<Project>): (g: Groups)
    ensures DistinctKeys(g)
    ensures GroupTotal(g) == TotalBudget(ps)
    ensures forall k :: k in KeySet(g) <==> exists i :: 0 <= i < |ps| && ps[i].category == k
    ensures forall k :: ValueOf(g, k) == Seqs.Sum(Seqs.Filter(ps, KeyIs(CategoryOf, k)), Summary.BudgetOf)
  {
    forall k {
      GroupSums(ps, CategoryOf, Summary.BudgetOf, k);
    }
    GroupSums(ps, CategoryOf, Summary.BudgetOf, "");
    Group(ps, CategoryOf, Summary.BudgetOf)
  }

  /** Every project's expenses, one project after another. */
  function AllExpenses(ps: seq<Project>): seq<Expense> {
    if |ps| == 0 then [] else ExpensesOf(ps[0]) + AllExpenses(ps[1..])
  }

  /** The expense chart: expense amounts by expense category, over every project that
      has an expense list. Each category's value is the sum of exactly its expenses, and
      the values add up to the overview's total expenses. */
  function ExpenseGroups(ps: seq<Project>): (g: Groups)
    ensures DistinctKeys(g)
    ensures GroupTotal(g) == TotalExpenses(ps)
    ensures forall k :: k in KeySet(g) <==>
              exists i :: 0 <= i < |AllExpenses(ps)| && AllExpenses(ps)[i].category == k
    ensures forall k :: ValueOf(g, k)
              == Seqs.Sum(Seqs.Filter(AllExpenses(ps), KeyIs(ExpenseCategory, k)), ProjectDetail.AmountOf)
  {
    forall k {
      GroupSums(AllExpenses(ps), ExpenseCategory, ProjectDetail.AmountOf, k);
    }
    GroupSums(AllExpenses(ps), ExpenseCategory, ProjectDetail.AmountOf, "");
    Group(AllExpenses(ps), ExpenseCategory, ProjectDetail.AmountOf)
  }

  /** Summing the flattened expense list is summing each project's expense total. */
  lemma {:induction false} AllExpensesSum(ps: seq<Project>)
    ensures Seqs.Sum(AllExpenses(ps), ProjectDetail.AmountOf) == Seqs.Sum(ps, ProjectDetail.ExpenseTotal)
  {
    if |ps| > 0 {
      AllExpensesSum(ps[1..]);
      Seqs.SumAppend(ExpensesOf(ps[0]), AllExpenses(ps[1..]), ProjectDetail.AmountOf);
    }
  }

  /** `Math.max(...Object.values(categories), 1)`. */
  function MaxValue(g: Groups): (m: real)
    ensures 1.0 <= m
    ensures forall i :: 0 <= i < |g| ==> g[i].1 <= m
    ensures m == 1.0 || exists i :: 0 <= i < |g| && m == g[i].1
  {
    if |g| == 0 then 1.0
    else
      var rest := MaxValue(g[1..]);
      assert forall i :: 1 <= i < |g| ==> g[i] == g[1..][i - 1];
      if g[0].1 > rest then g[0].1 else rest
  }

  /** The palette slot of the entry at `index`. */
  function ColourIndex(index: nat): (c: nat)
    ensures c < PaletteSize
    ensures index < PaletteSize ==> c == index
    ensures (index - c) % PaletteSize == 0
  {
    index % PaletteSize
  }
}

=== FILE: locales.dfy ===
/** Translation lookup, `t(key, params)`: the current locale's text for a key, with each
    `{name}` placeholder filled in once. */
module Locales {
  import Strings

  /** The locale table, key to text. */
  type Table = map<string, string>

  /** A parameter's name and its value already turned into text. */
  type Param = (string, string)

  /** `locales[currentLocale][key] || key`: a missing or empty entry falls back to the key. */
  function Lookup(table: Table, key: string): (text: string)
    ensures key in table && table[key] != "" ==> text == table[key]
    ensures key !in table || table[key] == "" ==> text == key
  {
    if key in table && table[key] != "" then table[key] else key
  }

  function Placeholder(name: string): string {
    "{" + name + "}"
  }

  /** Each parameter in turn replaces the first occurrence of its placeholder in the text
      left by the parameters before it. */
  function Substitute(text: string, params: seq<Param>): (r: string)
    ensures |params| == 0 ==> r == text
    ensures |params| == 1 ==> r == Strings.ReplaceFirst(text, Placeholder(params[0].0), params[0].1)
    ensures (forall k, j :: 0 <= k < |params| ==> !Strings.OccursAt(text, Placeholder(params[k].0), j)) ==> r == text
    decreases |params|
  {
    if |params| == 0 then text
    else Substitute(Strings.ReplaceFirst(text, Placeholder(params[0].0), params[0].1), params[1..])
  }

  /** `t(key, params)`; no parameters at all is the same as an empty list. */
  function Translate(table: Table, key: string, params: seq<Param>): (r: string)
    ensures |params| == 0 ==> r == Lookup(table, key)
    ensures (forall k, j :: 0 <= k < |params| ==> !Strings.OccursAt(Lookup(table, key), Placeholder(params[k].0), j))
            ==> r == Lookup(table, key)
  {
    Substitute(Lookup(table, key), params)
  }

  /** Without parameters the table text comes back unchanged. */
  lemma NoParamsGivesLookup(table: Table, key: string)
    ensures Translate(table, key, []) == Lookup(table, key)
    ensures key !in table ==> Translate(table, key, []) == key
  {
  }

  /** Substitution is applied in order: a list of parameters acts as its first part
      followed by the rest. */
  lemma {:induction false} SubstituteAppend(text: string, first: seq<Param>, rest: seq<Param>)
    ensures Substitute(text, first + rest) == Substitute(Substitute(text, first), rest)
    decreases |first|
  {
    if |first| > 0 {
      assert (first + rest)[0] == first[0];
      assert (first + rest)[1..] == first[1..] + rest;
      SubstituteAppend(Strings.ReplaceFirst(text, Placeholder(first[0].0), first[0].1), first[1..], rest);
    } else {
      assert first + rest == rest;
    }
  }

  /** A parameter whose placeholder does not occur leaves the text as it is. */
  lemma AbsentPlaceholderUnchanged(text: string, name: string, value: string)
    requires forall j :: !Strings.OccursAt(text, Placeholder(name), j)
    ensures Substitute(text, [(name, value)]) == text
  {
    assert Strings.IndexOf(text, Placeholder(name)).None?;
    assert [(name, value)][1..] == [];
  }

  /** Only the first placeholder is filled: the text before it is kept, the value follows,
      and everything after the placeholder, further occurrences included, is kept too. */
  lemma OnlyFirstOccurrenceReplaced(text: string, name: string, value: string, i: nat)
    requires Strings.OccursAt(text, Placeholder(name), i)
    requires forall j :: 0 <= j < i ==> !Strings.OccursAt(text, Placeholder(name), j)
    ensures Substitute(text, [(name, value)]) == text[..i] + value + text[i + |Placeholder(name)|..]
  {
    Strings.IndexOfFirst(text, Placeholder(name), i);
    assert [(name, value)][1..] == [];
  }
}

=== FILE: notifications.dfy ===
/** The notification list: mark one or all as read, dismiss one, and the unread count
    that picks the header text and shows the "mark all" button. */
module Notifications {
  import Seqs

  datatype Kind = Info | Warning | Success | Error

  datatype Notification = Notification(
    id: string,
    title: string,
    message: string,
    kind: Kind,
    date: int,
    read: bool)

  predicate IsUnread(n: Notification) {
    !n.read
  }

  /** `notifications.filter(n => !n.read).length`: at most the list's length, and 0
      exactly when every notification is read. */
  function UnreadCount(ns: seq<Notification>): (count: nat)
    ensures count <= |ns|
    ensures count == 0 <==> forall i :: 0 <= i < |ns| ==> ns[i].read
  {
    NoneUnread(ns);
    |Seqs.Filter(ns, IsUnread)|
  }

  lemma NoneUnread(ns: seq<Notification>)
    ensures |Seqs.Filter(ns, IsUnread)| == 0 <==> forall i :: 0 <= i < |ns| ==> ns[i].read
  {
    if forall i :: 0 <= i < |ns| ==> ns[i].read {
      Seqs.FilterNone(ns, IsUnread);
    } else {
      var i :| 0 <= i < |ns| && !ns[i].read;
      Seqs.FilterMembership(ns, IsUnread, ns[i]);
    }
  }

  /** `ns[i]` is the one unread notification of the list. */
  predicate OnlyUnread(ns: seq<Notification>, i: int) {
    0 <= i < |ns| && !ns[i].read && forall j :: 0 <= j < |ns| && j != i ==> ns[j].read
  }

  /** The count is 1 exactly when one notification, and no other, is unread. */
  lemma {:induction false} OneUnread(ns: seq<Notification>)
    ensures UnreadCount(ns) == 1 <==> exists i :: OnlyUnread(ns, i)
  {
    if |ns| > 0 {
      var rest := ns[1..];
      OneUnread(rest);
      assert UnreadCount(ns) == (if ns[0].read then 0 else 1) + UnreadCount(rest);
      if !ns[0].read {
        if UnreadCount(rest) == 0 {
          assert OnlyUnread(ns, 0) by {
            assert forall j :: 1 <= j < |ns| ==> ns[j] == rest[j - 1];
          }
        }
        if i :| OnlyUnread(ns, i) {
          assert i == 0;
          assert forall j :: 0 <= j < |rest| ==> rest[j] == ns[j + 1];
        }
      } else {
        if i :| OnlyUnread(rest, i) {
          assert OnlyUnread(ns, i + 1) by {
            assert forall j :: 1 <= j < |ns| ==> ns[j] == rest[j - 1];
          }
        }
        if i :| OnlyUnread(ns, i) {
          assert OnlyUnread(rest, i - 1) by {
            assert forall j :: 0 <= j < |rest| ==> rest[j] == ns[j + 1];
          }
        }
      }
    }
  }

  /** Mark the notifications with the id as read. */
  function MarkAsRead(ns: seq<Notification>, id: string): (r: seq<Notification>)
    ensures |r| == |ns|
    ensures forall i :: 0 <= i < |ns| && ns[i].id != id ==> r[i] == ns[i]
    ensures forall i :: 0 <= i < |ns| && ns[i].id == id ==> r[i] == ns[i].(read := true)
  {
    seq(|ns|, i requires 0 <= i < |ns| => if ns[i].id == id then ns[i].(read := true) else ns[i])
  }

  /** Mark every notification as read. */
  function MarkAllAsRead(ns: seq<Notification>): (r: seq<Notification>)
    ensures |r| == |ns|
    ensures forall i :: 0 <= i < |ns| ==> r[i] == ns[i].(read := true)
  {
    seq(|ns|, i requires 0 <= i < |ns| => ns[i].(read := true))
  }

  /** Dismiss the notifications with the id: exactly those with other ids remain. */
  function Delete(ns: seq<Notification>, id: string): (r: seq<Notification>)
    ensures forall i :: 0 <= i < |r| ==> r[i].id != id
    ensures forall n :: n in r <==> n in ns && n.id != id
  {
    var r := Seqs.Filter(ns, OtherThan(id));
    assert forall n :: n in r <==> n in ns && n.id != id by {
      forall n
        ensures n in r <==> n in ns && n.id != id
      {
        Seqs.FilterMembership(ns, OtherThan(id), n);
      }
    }
    r
  }

  /** Dismissal keeps the rest in order, duplicates included: it works item by item,
      dropping an item with the id and keeping any other. */
  lemma DeleteAppend(a: seq<Notification>, b: seq<Notification>, id: string)
    ensures Delete(a + b, id) == Delete(a, id) + Delete(b, id)
  {
    Seqs.FilterAppend(a, b, OtherThan(id));
  }

  lemma DeleteSingle(n: Notification, id: string)
    ensures Delete([n], id) == (if n.id == id then [] else [n])
  {
    assert [n][1..] == [];
  }

  function OtherThan(id: string): Notification -> bool {
    (n: Notification) => n.id != id
  }

  function UnreadWithId(id: string): Notification -> bool {
    (n: Notification) => !n.read && n.id == id
  }

  /** The header uses the singular text exactly when one notification is unread, and
      the plural one otherwise, none unread included. */
  function HeaderKey(ns: seq<Notification>): (key: string)
    ensures key == "unreadNotifications" <==> exists i :: OnlyUnread(ns, i)
    ensures key != "unreadNotifications" ==> key == "unreadNotificationsPlural"
  {
    OneUnread(ns);
    if UnreadCount(ns) == 1 then "unreadNotifications" else "unreadNotificationsPlural"
  }

  /** The "mark all" button shows exactly when some notification is unread. */
  function ShowsMarkAll(ns: seq<Notification>): (shown: bool)
    ensures shown <==> exists i :: 0 <= i < |ns| && !ns[i].read
  {
    UnreadCount(ns) > 0
  }

  /** Dismissal keeps exactly the notifications with other ids. */
  lemma DeleteMembership(ns: seq<Notification>, id: string, n: Notification)
    ensures n in Delete(ns, id) <==> n in ns && n.id != id
  {
    Seqs.FilterMembership(ns, OtherThan(id), n);
  }

  /** Marking as read is idempotent, both for one id and for all. */
  lemma MarkIdempotent(ns: seq<Notification>, id: string)
    ensures MarkAsRead(MarkAsRead(ns, id), id) == MarkAsRead(ns, id)
    ensures MarkAllAsRead(MarkAllAsRead(ns)) == MarkAllAsRead(ns)
  {
  }

  /** After "mark all" nothing is unread, the button disappears and the header uses the
      plural text ("0 unread notifications"). */
  lemma MarkAllClearsUnread(ns: seq<Notification>)
    ensures UnreadCount(MarkAllAsRead(ns)) == 0
    ensures !ShowsMarkAll(MarkAllAsRead(ns))
    ensures HeaderKey(MarkAllAsRead(ns)) == "unreadNotificationsPlural"
  {
    Seqs.FilterNone(MarkAllAsRead(ns), IsUnread);
  }

  /** The count is the number of unread items: it adds up over the parts of a list,
      and a single notification counts 1 when unread and 0 when read. */
  lemma UnreadCountAppend(a: seq<Notification>, b: seq<Notification>)
    ensures UnreadCount(a + b) == UnreadCount(a) + UnreadCount(b)
  {
    Seqs.FilterAppend(a, b, IsUnread);
  }

  lemma UnreadCountSingle(n: Notification)
    ensures UnreadCount([n]) == if n.read then 0 else 1
  {
    assert [n][1..] == [];
  }

  /** Marking one id as read removes exactly the unread notifications with that id from
      the count, so the count never grows. */
  lemma {:induction false} MarkAsReadCount(ns: seq<Notification>, id: string)
    ensures UnreadCount(MarkAsRead(ns, id)) + |Seqs.Filter(ns, UnreadWithId(id))|
            == UnreadCount(ns)
    ensures UnreadCount(MarkAsRead(ns, id)) <= UnreadCount(ns)
  {
    if |ns| > 0 {
      MarkAsReadCount(ns[1..], id);
      assert MarkAsRead(ns, id)[1..] == MarkAsRead(ns[1..], id);
    }
  }

  /** Dismissing never increases the unread count. */
  lemma {:induction false} DeleteCount(ns: seq<Notification>, id: string)
    ensures UnreadCount(Delete(ns, id)) <= UnreadCount(ns)
    ensures |Delete(ns, id)| <= |ns|
  {
    if |ns| > 0 {
      DeleteCount(ns[1..], id);
      if ns[0].id != id {
        assert Delete(ns, id) == [ns[0]] + Delete(ns[1..], id);
        assert ([ns[0]] + Delete(ns[1..], id))[1..] == Delete(ns[1..], id);
      } else {
        assert Delete(ns, id) == Delete(ns[1..], id);
      }
    }
  }
}

=== FILE: progress_update.dfy ===
/** The progress dialog: a slider and a number box both edit one `progress` value, which
    is handed to the caller on submit. */
module ProgressUpdate {
  import opened Wrappers

  /** The slider's `min` and `max` (its step is 1, so it reports whole numbers). */
  const SliderMin: int := 0
  const SliderMax: int := 100

  predicate InRange(progress: real) {
    SliderMin as real <= progress <= SliderMax as real
  }

  /** `handleSliderChange`: the slider reports one value per thumb and the first one is
      taken. */
  function Slide(progress: real, values: seq<int>): (r: real)
    requires |values| >= 1
    ensures SliderMin <= values[0] <= SliderMax ==> InRange(r)
  {
    values[0] as real
  }

  /** Only the first thumb counts, and the previous value plays no part. */
  lemma SlideTakesFirstValue(progress: real, other: real, v: int, rest: seq<int>)
    ensures Slide(progress, [v] + rest) == Slide(other, [v]) == v as real
  {
    assert ([v] + rest)[0] == v;
  }

  /** `handleInputChange` after `parseInt`: `parsed` is None for text that is not a number.
      A value is taken only when it lies within 0..100; anything else is ignored. */
  function Typed(progress: real, parsed: Option<int>): (r: real)
    ensures parsed.Some? && SliderMin <= parsed.value <= SliderMax ==> r == parsed.value as real
    ensures parsed.None? || parsed.value < SliderMin || SliderMax < parsed.value ==> r == progress
    ensures r == progress || InRange(r)
  {
    match parsed
    case Some(v) => if SliderMin <= v <= SliderMax then v as real else progress
    case None => progress
  }

  /** One edit of the dialog. */
  datatype Edit = SliderMoved(values: seq<int>) | TextTyped(parsed: Option<int>)

  /** The slider widget only reports values within its own range. */
  predicate WellFormed(e: Edit) {
    e.SliderMoved? ==> |e.values| >= 1 && forall i :: 0 <= i < |e.values| ==> SliderMin <= e.values[i] <= SliderMax
  }

  /** A slider move takes the first reported value; either edit keeps progress within
      0..100, and one that changes it leaves it within 0..100. */
  function Apply(progress: real, e: Edit): (r: real)
    requires WellFormed(e)
    ensures e.SliderMoved? ==> r == e.values[0] as real
    ensures InRange(progress) ==> InRange(r)
    ensures r == progress || InRange(r)
  {
    match e
    case SliderMoved(values) => Slide(progress, values)
    case TextTyped(parsed) => Typed(progress, parsed)
  }

  /** The value after a run of edits, starting from the dialog's `currentProgress`.
      Starting within 0..100, no run of edits can leave that range; from any start,
      the value is either never changed or ends within 0..100. */
  function Run(progress: real, edits: seq<Edit>): (r: real)
    requires forall i :: 0 <= i < |edits| ==> WellFormed(edits[i])
    ensures InRange(progress) ==> InRange(r)
    ensures r == progress || InRange(r)
    decreases |edits|
  {
    if |edits| == 0 then progress else Run(Apply(progress, edits[0]), edits[1..])
  }

  /** A run of rejected inputs changes nothing. */
  lemma {:induction false} RejectedInputsKeepProgress(progress: real, edits: seq<Edit>)
    requires forall i :: 0 <= i < |edits| ==> edits[i].TextTyped? && !(edits[i].parsed.Some? && SliderMin <= edits[i].parsed.value <= SliderMax)
    ensures Run(progress, edits) == progress
    decreases |edits|
  {
    if |edits| > 0 {
      assert Apply(progress, edits[0]) == progress;
      RejectedInputsKeepProgress(progress, edits[1..]);
    }
  }

  /** What `handleSubmit` does: hand the current value to `onSubmit`, then close. */
  datatype Submission = Submission(submitted: real, open: bool)

  function Submit(progress: real): (s: Submission)
    ensures s.submitted == progress && !s.open
  {
    Submission(progress, false)
  }
}

=== FILE: project_detail.dfy ===
/** The per-project figures of the project page: money spent, money earned from
    logged hours, net profit, and the status badge text. */
module ProjectDetail {
  import opened Wrappers
  import opened Types
  import Seqs
  import Strings

  function AmountOf(e: Expense): real {
    e.amount
  }

  /** `project.expenses?.reduce((sum, e) => sum + e.amount, 0) || 0`. */
  function ExpenseTotal(p: Project): (r: real)
    ensures p.expenses.None? ==> r == 0.0
  {
    Seqs.Sum(ExpensesOf(p), AmountOf)
  }

  /** Non-negative amounts give a non-negative total. */
  lemma ExpenseTotalNonNegative(p: Project)
    requires forall i :: 0 <= i < |ExpensesOf(p)| ==> 0.0 <= ExpensesOf(p)[i].amount
    ensures 0.0 <= ExpenseTotal(p)
  {
    Seqs.SumNonNegative(ExpensesOf(p), AmountOf);
  }

  /** `(hoursWorked || 0) * (hourlyRate || 0)`. */
  function Earned(p: Project): (r: real)
    ensures p.hoursWorked.None? || p.hourlyRate.None? ==> r == 0.0
    ensures p.hoursWorked.Some? && p.hourlyRate.Some? ==> r == p.hoursWorked.value * p.hourlyRate.value
  {
    p.hoursWorked.GetOr(0.0) * p.hourlyRate.GetOr(0.0)
  }

  /** Budget less expenses; hours and rate play no part. */
  function NetProfit(p: Project): (r: real)
    ensures r + ExpenseTotal(p) == p.budget
  {
    p.budget - ExpenseTotal(p)
  }

  /** The badge text: the status name with its first letter upper-cased. */
  function StatusLabel(s: Status): (badge: string)
    ensures |badge| == |StatusName(s)|
    ensures badge[1..] == StatusName(s)[1..]
    ensures 'A' <= badge[0] <= 'Z'
    ensures badge[0] == Strings.UpperAscii(StatusName(s)[0])
  {
    Strings.Capitalize(StatusName(s))
  }

  /** Appending an expense adds exactly its amount to the project's total. */
  lemma ExpenseTotalAppend(p: Project, e: Expense)
    ensures ExpenseTotal(p.(expenses := Some(ExpensesOf(p) + [e]))) == ExpenseTotal(p) + e.amount
  {
    Seqs.SumAppend(ExpensesOf(p), [e], AmountOf);
  }

  /** Recording one more expense lowers net profit by exactly its amount. */
  lemma NetProfitAppend(p: Project, e: Expense)
    ensures NetProfit(p.(expenses := Some(ExpensesOf(p) + [e]))) == NetProfit(p) - e.amount
  {
    ExpenseTotalAppend(p, e);
  }

  /** Net profit does not depend on hours worked or the hourly rate. */
  lemma NetProfitIgnoresHours(p: Project, hours: Option<real>, rate: Option<real>)
    ensures NetProfit(p.(hoursWorked := hours, hourlyRate := rate)) == NetProfit(p)
  {
  }

  /** Distinct statuses get distinct badges. */
  lemma StatusLabelInjective(s: Status, t: Status)
    requires StatusLabel(s) == StatusLabel(t)
    ensures s == t
  {
    assert StatusLabel(s)[1..] == StatusLabel(t)[1..];
  }
}

=== FILE: project_list.dfy ===
/** The project list view: a status filter followed by a stable sort under one of five
    orders chosen by name. */
module ProjectList {
  import opened Types
  import Seqs

  /** The filter test: "all" keeps everything, any other value keeps the projects whose
      status name equals it. */
  function Matches(filter: string): Project -> bool {
    (p: Project) => filter == "all" || StatusName(p.status) == filter
  }

  /** `projects.filter(...)`: exactly the projects passing the test, none added. */
  function FilterProjects(ps: seq<Project>, filter: string): (r: seq<Project>)
    ensures |r| <= |ps|
    ensures forall x :: x in r <==> x in ps && Matches(filter)(x)
  {
    var r := Seqs.Filter(ps, Matches(filter));
    assert forall x :: x in r <==> x in ps && Matches(filter)(x) by {
      forall x
        ensures x in r <==> x in ps && Matches(filter)(x)
      {
        Seqs.FilterMembership(ps, Matches(filter), x);
      }
    }
    r
  }

  /** The sort comparator as written: a negative result puts `a` first. Every one of the
      five comparators is the difference of the sort keys, so each is a total preorder,
      and an unknown order compares everything equal. */
  function Compare(sort: string, a: Project, b: Project): (c: real)
    ensures c == SortKey(sort, a) - SortKey(sort, b)
  {
    if sort == "newest" then (b.createdAt - a.createdAt) as real
    else if sort == "oldest" then (a.createdAt - b.createdAt) as real
    else if sort == "budget-high" then b.budget - a.budget
    else if sort == "budget-low" then a.budget - b.budget
    else if sort == "deadline" then (a.dueDate - b.dueDate) as real
    else 0.0
  }

  /** The key each order sorts ascending by. */
  function SortKey(sort: string, p: Project): real {
    if sort == "newest" then -(p.createdAt as real)
    else if sort == "oldest" then p.createdAt as real
    else if sort == "budget-high" then -p.budget
    else if sort == "budget-low" then p.budget
    else if sort == "deadline" then p.dueDate as real
    else 0.0
  }

  predicate SortedBy(sort: string, s: seq<Project>) {
    forall i, j :: 0 <= i < j < |s| ==> SortKey(sort, s[i]) <= SortKey(sort, s[j])
  }

  /** Place `x` before the first element it does not compare after. */
  function Insert(sort: string, x: Project, s: seq<Project>): seq<Project> {
    if |s| == 0 then [x]
    else if Compare(sort, x, s[0]) <= 0.0 then [x] + s
    else [s[0]] + Insert(sort, x, s[1..])
  }

  lemma {:induction false} InsertMultiset(sort: string, x: Project, s: seq<Project>)
    ensures multiset(Insert(sort, x, s)) == multiset(s) + multiset{x}
  {
    if |s| > 0 && Compare(sort, x, s[0]) > 0.0 {
      InsertMultiset(sort, x, s[1..]);
      assert s == [s[0]] + s[1..];
    }
  }

  /** A lower bound on every key, of `x` and of `s`, bounds every key after insertion. */
  lemma {:induction false} InsertLowerBound(sort: string, x: Project, s: seq<Project>, lo: real)
    requires lo <= SortKey(sort, x)
    requires forall k :: 0 <= k < |s| ==> lo <= SortKey(sort, s[k])
    ensures forall k :: 0 <= k < |Insert(sort, x, s)| ==> lo <= SortKey(sort, Insert(sort, x, s)[k])
  {
    if |s| > 0 && Compare(sort, x, s[0]) > 0.0 {
      InsertLowerBound(sort, x, s[1..], lo);
    }
  }

  lemma {:induction false} InsertSorted(sort: string, x: Project, s: seq<Project>)
    requires SortedBy(sort, s)
    ensures SortedBy(sort, Insert(sort, x, s))
  {
    if |s| > 0 {
      if Compare(sort, x, s[0]) <= 0.0 {
        assert SortKey(sort, x) <= SortKey(sort, s[0]);
      } else {
        var rest := Insert(sort, x, s[1..]);
        InsertSorted(sort, x, s[1..]);
        InsertLowerBound(sort, x, s[1..], SortKey(sort, s[0]));
        assert forall k :: 0 <= k < |rest| ==> SortKey(sort, s[0]) <= SortKey(sort, rest[k]);
      }
    }
  }

  /** `[...filtered].sort(comparator)`: a stable sort of a copy, giving a permutation
      of the input ordered by the key. */
  function Sort(sort: string, s: seq<Project>): (r: seq<Project>)
    ensures multiset(r) == multiset(s)
    ensures SortedBy(sort, r)
  {
    if |s| == 0 then []
    else
      var rest := Sort(sort, s[1..]);
      InsertMultiset(sort, s[0], rest);
      InsertSorted(sort, s[0], rest);
      assert s == [s[0]] + s[1..];
      Insert(sort, s[0], rest)
  }

  /** What the list shows for a filter and a sort order: a rearrangement of the
      filtered projects, ordered by the sort key. */
  function Visible(ps: seq<Project>, filter: string, sort: string): (r: seq<Project>)
    ensures multiset(r) == multiset(FilterProjects(ps, filter))
    ensures SortedBy(sort, r)
  {
    Sort(sort, FilterProjects(ps, filter))
  }

  /** The "no projects found" message shows when nothing is visible. */
  predicate ShowsEmptyState(ps: seq<Project>, filter: string, sort: string) {
    |Visible(ps, filter, sort)| == 0
  }

  /** "all" keeps every project. */
  lemma FilterAllKeepsEverything(ps: seq<Project>)
    ensures FilterProjects(ps, "all") == ps
  {
    Seqs.FilterAll(ps, Matches("all"));
  }

  function HasStatus(st: Status): Project -> bool {
    (p: Project) => p.status == st
  }

  /** A status name keeps exactly the projects with that status, in input order; a
      value that is neither "all" nor a status name keeps nothing. */
  lemma {:induction false} FilterByStatus(ps: seq<Project>, filter: string)
    ensures ParseStatus(filter).Some? ==>
              FilterProjects(ps, filter) == Seqs.Filter(ps, HasStatus(ParseStatus(filter).value))
    ensures filter != "all" && ParseStatus(filter).None? ==> FilterProjects(ps, filter) == []
  {
    if |ps| > 0 {
      FilterByStatus(ps[1..], filter);
      if ParseStatus(filter).Some? {
        StatusNameRoundTrip(ps[0].status, filter);
      }
      if ParseStatus(filter).None? {
        StatusNameRoundTrip(ps[0].status, filter);
      }
    }
  }

  /** The orders the five sort names produce on the visible list. */
  lemma VisibleOrder(ps: seq<Project>, filter: string)
    ensures var r := Visible(ps, filter, "budget-high");
      forall i, j :: 0 <= i < j < |r| ==> r[i].budget >= r[j].budget
    ensures var r := Visible(ps, filter, "budget-low");
      forall i, j :: 0 <= i < j < |r| ==> r[i].budget <= r[j].budget
    ensures var r := Visible(ps, filter, "newest");
      forall i, j :: 0 <= i < j < |r| ==> r[i].createdAt >= r[j].createdAt
    ensures var r := Visible(ps, filter, "oldest");
      forall i, j :: 0 <= i < j < |r| ==> r[i].createdAt <= r[j].createdAt
    ensures var r := Visible(ps, filter, "deadline");
      forall i, j :: 0 <= i < j < |r| ==> r[i].dueDate <= r[j].dueDate
  {
  }

  function KeyIs(sort: string, k: real): Project -> bool {
    (p: Project) => SortKey(sort, p) == k
  }

  lemma {:induction false} InsertStable(sort: string, x: Project, s: seq<Project>, k: real)
    ensures Seqs.Filter(Insert(sort, x, s), KeyIs(sort, k))
            == Seqs.Filter([x], KeyIs(sort, k)) + Seqs.Filter(s, KeyIs(sort, k))
  {
    if |s| > 0 {
      if Compare(sort, x, s[0]) <= 0.0 {
        Seqs.FilterAppend([x], s, KeyIs(sort, k));
      } else {
        InsertStable(sort, x, s[1..], k);
        assert s == [s[0]] + s[1..];
        Seqs.FilterAppend([s[0]], Insert(sort, x, s[1..]), KeyIs(sort, k));
        Seqs.FilterAppend([s[0]], s[1..], KeyIs(sort, k));
      }
    }
  }

  /** Stability: the projects sharing any one key keep their relative order. */
  lemma {:induction false} SortStable(sort: string, s: seq<Project>, k: real)
    ensures Seqs.Filter(Sort(sort, s), KeyIs(sort, k)) == Seqs.Filter(s, KeyIs(sort, k))
  {
    if |s| > 0 {
      SortStable(sort, s[1..], k);
      InsertStable(sort, s[0], Sort(sort, s[1..]), k);
      assert s == [s[0]] + s[1..];
      Seqs.FilterAppend([s[0]], s[1..], KeyIs(sort, k));
    }
  }

  predicate KnownSort(sort: string) {
    sort == "newest" || sort == "oldest" || sort == "budget-high" || sort == "budget-low"
    || sort == "deadline"
  }

  /** An unrecognised sort name compares everything equal, so the filtered order stays. */
  lemma UnknownSortKeepsOrder(ps: seq<Project>, filter: string, sort: string)
    requires !KnownSort(sort)
    ensures Visible(ps, filter, sort) == FilterProjects(ps, filter)
  {
    var f := FilterProjects(ps, filter);
    SortStable(sort, f, 0.0);
    Seqs.FilterAll(f, KeyIs(sort, 0.0));
    Seqs.FilterAll(Sort(sort, f), KeyIs(sort, 0.0));
  }

  /** The empty-state message shows exactly when no project passes the filter. */
  lemma EmptyStateIffNoMatch(ps: seq<Project>, filter: string, sort: string)
    ensures ShowsEmptyState(ps, filter, sort) <==> forall i :: 0 <= i < |ps| ==> !Matches(filter)(ps[i])
  {
    var f := FilterProjects(ps, filter);
    assert |Visible(ps, filter, sort)| == |f| by {
      assert |multiset(Visible(ps, filter, sort))| == |multiset(f)|;
    }
    if forall i :: 0 <= i < |ps| ==> !Matches(filter)(ps[i]) {
      Seqs.FilterNone(ps, Matches(filter));
    } else {
      var i :| 0 <= i < |ps| && Matches(filter)(ps[i]);
      Seqs.FilterMembership(ps, Matches(filter), ps[i]);
    }
  }
}

=== FILE: project_state.dfy ===
/** The project list held by the application and the pure updates applied to it after
    each store call: append, replace by id and remove by id for projects; append,
    replace and remove inside one project's expense list; the progress update that
    forces `completed` at 100%; and the reload that refreshes projects and summary. */
module ProjectState {
  import opened Wrappers
  import opened Types
  import Seqs
  import Summary
  import Api
  import ProjectDetail

  /** The ids of a project list, in order. */
  function Ids(ps: seq<Project>): seq<string> {
    seq(|ps|, i requires 0 <= i < |ps| => ps[i].id)
  }

  // Projects.

  /** `[...projects, newProject]`. */
  function AddProject(ps: seq<Project>, np: Project): (r: seq<Project>)
    ensures |r| == |ps| + 1 && r[..|ps|] == ps && r[|ps|] == np
  {
    ps + [np]
  }

  /** `projects.map(p => p.id === updated.id ? updated : p)`. */
  function ReplaceProject(ps: seq<Project>, updated: Project): (r: seq<Project>)
    ensures |r| == |ps| && Ids(r) == Ids(ps)
    ensures forall i :: 0 <= i < |ps| && ps[i].id != updated.id ==> r[i] == ps[i]
    ensures forall i :: 0 <= i < |ps| && ps[i].id == updated.id ==> r[i] == updated
  {
    seq(|ps|, i requires 0 <= i < |ps| => if ps[i].id == updated.id then updated else ps[i])
  }

  /** `projects.filter(p => p.id !== id)`. */
  function RemoveProject(ps: seq<Project>, id: string): (r: seq<Project>)
    ensures forall i :: 0 <= i < |r| ==> r[i].id != id
  {
    Seqs.Filter(ps, (p: Project) => p.id != id)
  }

  /** Removal keeps exactly the projects with other ids. */
  lemma RemoveProjectMembership(ps: seq<Project>, id: string, p: Project)
    ensures p in RemoveProject(ps, id) <==> p in ps && p.id != id
  {
    Seqs.FilterMembership(ps, (q: Project) => q.id != id, p);
  }

  /** Replacing twice with the same record is the same as replacing once. */
  lemma ReplaceProjectIdempotent(ps: seq<Project>, updated: Project)
    ensures ReplaceProject(ReplaceProject(ps, updated), updated) == ReplaceProject(ps, updated)
  {
  }

  /** Removing a freshly added project gives back the original list. */
  lemma {:induction false} RemoveAfterAdd(ps: seq<Project>, np: Project)
    requires forall i :: 0 <= i < |ps| ==> ps[i].id != np.id
    ensures RemoveProject(AddProject(ps, np), np.id) == ps
  {
    Seqs.FilterAppend(ps, [np], (p: Project) => p.id != np.id);
    Seqs.FilterAll(ps, (p: Project) => p.id != np.id);
  }

  /** Adding a project adds its budget to the portfolio total. */
  lemma AddProjectTotal(ps: seq<Project>, np: Project)
    ensures Summary.TotalBudget(AddProject(ps, np)) == Summary.TotalBudget(ps) + np.budget
  {
    Seqs.SumAppend(ps, [np], Summary.BudgetOf);
  }

  // Expenses inside a project.

  /** The project with `e` appended to its expense list, which is created when absent. */
  function WithExpense(p: Project, e: Expense): Project {
    p.(expenses := Some(ExpensesOf(p) + [e]))
  }

  /** `addExpense`'s local update: append to the matching project only. */
  function AddExpense(ps: seq<Project>, projectId: string, e: Expense): (r: seq<Project>)
    ensures |r| == |ps| && Ids(r) == Ids(ps)
    ensures forall i :: 0 <= i < |ps| && ps[i].id != projectId ==> r[i] == ps[i]
    ensures forall i :: 0 <= i < |ps| && ps[i].id == projectId ==>
              r[i] == WithExpense(ps[i], e)
              && r[i].expenses == Some(ExpensesOf(ps[i]) + [e])
              && ProjectDetail.ExpenseTotal(r[i]) == ProjectDetail.ExpenseTotal(ps[i]) + e.amount
  {
    forall i | 0 <= i < |ps| && ps[i].id == projectId {
      ProjectDetail.ExpenseTotalAppend(ps[i], e);
    }
    seq(|ps|, i requires 0 <= i < |ps| => if ps[i].id == projectId then WithExpense(ps[i], e) else ps[i])
  }

  /** `expenses.map(x => x.id === e.id ? e : x)`. */
  function ReplaceExpense(es: seq<Expense>, e: Expense): (r: seq<Expense>)
    ensures |r| == |es|
    ensures forall i :: 0 <= i < |es| ==> r[i].id == es[i].id
    ensures forall i :: 0 <= i < |es| && es[i].id == e.id ==> r[i] == e
    ensures forall i :: 0 <= i < |es| && es[i].id != e.id ==> r[i] == es[i]
  {
    seq(|es|, i requires 0 <= i < |es| => if es[i].id == e.id then e else es[i])
  }

  /** `updateExpense`'s local update: only a matching project that has an expense list
      is touched; one without a list is left as it is. */
  function UpdateExpense(ps: seq<Project>, projectId: string, e: Expense): (r: seq<Project>)
    ensures |r| == |ps| && Ids(r) == Ids(ps)
    ensures forall i :: 0 <= i < |ps| && (ps[i].id != projectId || ps[i].expenses.None?) ==> r[i] == ps[i]
    ensures forall i :: 0 <= i < |ps| && ps[i].id == projectId && ps[i].expenses.Some? ==>
              r[i] == ps[i].(expenses := Some(ReplaceExpense(ps[i].expenses.value, e)))
  {
    seq(|ps|, i requires 0 <= i < |ps| =>
      if ps[i].id == projectId && ps[i].expenses.Some?
      then ps[i].(expenses := Some(ReplaceExpense(ps[i].expenses.value, e)))
      else ps[i])
  }

  /** The test `x => x.id !== expenseId`. */
  function OtherThan(expenseId: string): Expense -> bool {
    (x: Expense) => x.id != expenseId
  }

  /** `expenses.filter(x => x.id !== expenseId)`. */
  function DropExpense(es: seq<Expense>, expenseId: string): (r: seq<Expense>)
    ensures forall x :: x in r <==> x in es && x.id != expenseId
  {
    var r := Seqs.Filter(es, OtherThan(expenseId));
    assert forall x :: x in r <==> x in es && x.id != expenseId by {
      forall x
        ensures x in r <==> x in es && x.id != expenseId
      {
        Seqs.FilterMembership(es, OtherThan(expenseId), x);
      }
    }
    r
  }

  /** Replacing an expense and then dropping its id leaves what dropping alone leaves:
      the replacement touches no expense with another id. */
  lemma {:induction false} DropAfterReplace(es: seq<Expense>, e: Expense)
    ensures DropExpense(ReplaceExpense(es, e), e.id) == DropExpense(es, e.id)
    decreases |es|
  {
    if |es| > 0 {
      var r := ReplaceExpense(es, e);
      assert r[1..] == ReplaceExpense(es[1..], e);
      DropAfterReplace(es[1..], e);
    }
  }

  /** Replacing with the same expense twice is the same as replacing once. */
  lemma ReplaceExpenseIdempotent(es: seq<Expense>, e: Expense)
    ensures ReplaceExpense(ReplaceExpense(es, e), e) == ReplaceExpense(es, e)
  {
  }

  /** `deleteExpense`'s local update: remove that id from the matching project's list. */
  function RemoveExpense(ps: seq<Project>, projectId: string, expenseId: string): (r: seq<Project>)
    ensures |r| == |ps| && Ids(r) == Ids(ps)
    ensures forall i :: 0 <= i < |ps| && (ps[i].id != projectId || ps[i].expenses.None?) ==> r[i] == ps[i]
    ensures forall i :: 0 <= i < |ps| && ps[i].id == projectId && ps[i].expenses.Some? ==>
              r[i] == ps[i].(expenses := Some(DropExpense(ps[i].expenses.value, expenseId)))
  {
    seq(|ps|, i requires 0 <= i < |ps| =>
      if ps[i].id == projectId && ps[i].expenses.Some?
      then ps[i].(expenses := Some(DropExpense(ps[i].expenses.value, expenseId)))
      else ps[i])
  }

  /** Removing a freshly added expense restores every project that already had an
      expense list without that id. */
  lemma RemoveAfterAddExpense(ps: seq<Project>, projectId: string, e: Expense)
    requires forall i :: 0 <= i < |ps| && ps[i].id == projectId ==>
               ps[i].expenses.Some? && forall j :: 0 <= j < |ps[i].expenses.value| ==> ps[i].expenses.value[j].id != e.id
    ensures RemoveExpense(AddExpense(ps, projectId, e), projectId, e.id) == ps
  {
    var r := RemoveExpense(AddExpense(ps, projectId, e), projectId, e.id);
    forall i | 0 <= i < |ps|
      ensures r[i] == ps[i]
    {
      if ps[i].id == projectId {
        var es := ps[i].expenses.value;
        Seqs.FilterAppend(es, [e], OtherThan(e.id));
        Seqs.FilterAll(es, OtherThan(e.id));
        assert DropExpense(es + [e], e.id) == es;
      }
    }
  }

  // Progress.

  /** The index of the first project with the id (`projects.find`). */
  function Find(ps: seq<Project>, id: string): (r: Option<nat>)
    ensures r.Some? ==> (r.value < |ps| && ps[r.value].id == id
                         && forall j :: 0 <= j < r.value ==> ps[j].id != id)
    ensures r.None? ==> forall j :: 0 <= j < |ps| ==> ps[j].id != id
  {
    if |ps| == 0 then None
    else if ps[0].id == id then Some(0)
    else match Find(ps[1..], id)
      case None => None
      case Some(k) => Some(k + 1)
  }

  /** The status a progress update leaves: completion 100 forces `completed`,
      any other value keeps the current status. */
  function StatusAfterProgress(current: Status, completion: real): (s: Status)
    ensures completion == 100.0 ==> s == Completed
    ensures completion != 100.0 ==> s == current
  {
    if completion == 100.0 then Completed else current
  }

  /** The record `updateProjectProgress` sends, or the error it raises for an unknown id. */
  function ProgressRequest(ps: seq<Project>, projectId: string, completion: real)
    : (r: Result<Project, string>)
    ensures r.Failure? <==> forall j :: 0 <= j < |ps| ==> ps[j].id != projectId
    ensures r.Success? ==> (exists j :: 0 <= j < |ps| && ps[j].id == projectId
                             && r.value == ps[j].(completionPercentage := completion,
                                                  status := StatusAfterProgress(ps[j].status, completion)))
  {
    match Find(ps, projectId)
    case None => Failure("المشروع غير موجود")
    case Some(j) =>
      Success(ps[j].(completionPercentage := completion,
                     status := StatusAfterProgress(ps[j].status, completion)))
  }

  /** `updateProjectProgress`: build the request, send it through the store, and put the
      record the store returns in place of the project. On failure nothing changes. */
  function UpdateProjectProgress(ps: seq<Project>, table: seq<Api.ProjectRow>, projectId: string,
                                 completion: real, now: int)
    : (r: Result<(seq<Api.ProjectRow>, seq<Project>), string>)
    ensures (forall j :: 0 <= j < |ps| ==> ps[j].id != projectId) ==> r.Failure?
    ensures r.Success? ==> |r.value.1| == |ps| && Ids(r.value.1) == Ids(ps)
    ensures r.Success? ==> forall i :: 0 <= i < |ps| && ps[i].id != projectId ==> r.value.1[i] == ps[i]
  {
    var request :- ProgressRequest(ps, projectId, completion);
    var (table', updated) :- Api.UpdateProject(table, request, now);
    Success((table', ReplaceProject(ps, updated)))
  }

  /** After a successful progress update every project with that id carries the new
      completion, and its status is `completed` exactly when the completion is 100 or the
      status already was `completed`; an unknown id is an error. */
  lemma ProgressUpdateOutcome(ps: seq<Project>, table: seq<Api.ProjectRow>, projectId: string,
                              completion: real, now: int)
    ensures (forall j :: 0 <= j < |ps| ==> ps[j].id != projectId) ==>
              UpdateProjectProgress(ps, table, projectId, completion, now).Failure?
    ensures var r := UpdateProjectProgress(ps, table, projectId, completion, now);
      r.Success? ==> forall i :: 0 <= i < |ps| && ps[i].id == projectId ==>
        && r.value.1[i].completionPercentage == completion
        && (completion == 100.0 ==> r.value.1[i].status == Completed)
        && (completion != 100.0 ==> r.value.1[i].status == ps[Find(ps, projectId).value].status)
  {
    var req := ProgressRequest(ps, projectId, completion);
    if req.Success? && Api.UpdateProject(table, req.value, now).Success? {
      Api.UpdateProjectRoundTrip(table, req.value, now);
    }
  }

  // Reload.

  /** What the dashboard shows: the project list and the summary. */
  datatype Dashboard = Dashboard(projects: seq<Project>, summary: FinancialSummary)

  /** `refreshProjects`: with no user nothing happens. Otherwise the projects are
      reloaded; if loading fails, the summary is recomputed from the projects already
      held. After a successful load the endpoint's summary is used, unless it is all
      zero (as it is whenever the endpoint fails), in which case it is recomputed
      from the loaded projects. */
  function Refresh(signedIn: bool, d: Dashboard, fetched: Result<seq<Api.ProjectRow>, string>,
                   summaryResponse: Result<FinancialSummary, string>, now: int): (r: Dashboard)
    ensures !signedIn ==> r == d
    ensures signedIn && fetched.Failure? ==> r.projects == d.projects
    ensures signedIn && fetched.Success? ==> r.projects == Api.ToProjects(fetched.value)
    ensures signedIn && fetched.Failure? ==> r.summary == Summary.Calculate(d.projects, now)
    ensures signedIn && fetched.Success? && summaryResponse.Success? && !AllZero(summaryResponse.value) ==>
              r.summary == summaryResponse.value
    ensures signedIn && fetched.Success? && (summaryResponse.Failure? || AllZero(summaryResponse.value)) ==>
              r.summary == Summary.Calculate(Api.ToProjects(fetched.value), now)
    ensures signedIn ==> r.summary == Summary.Calculate(r.projects, now)
                         || (summaryResponse.Success? && r.summary == summaryResponse.value
                             && !AllZero(r.summary))
  {
    if !signedIn then d
    else match fetched
      case Failure(_) => d.(summary := Summary.Calculate(d.projects, now))
      case Success(rows) =>
        var ps := Api.ToProjects(rows);
        var s := Api.FinancialSummaryOrZero(summaryResponse);
        Dashboard(ps, if AllZero(s) then Summary.Calculate(ps, now) else s)
  }

  /** When the summary endpoint fails, the dashboard shows the summary computed locally
      from the freshly loaded projects. */
  lemma RefreshFallsBackToLocal(d: Dashboard, rows: seq<Api.ProjectRow>, err: string, now: int)
    ensures Refresh(true, d, Success(rows), Failure(err), now)
            == Dashboard(Api.ToProjects(rows), Summary.Calculate(Api.ToProjects(rows), now))
  {
  }
}

=== FILE: reset_password.dfy ===
/** The password-reset page: the link check on load and the checks `handleSubmit` makes
    before asking the auth service to change the password. */
module ResetPassword {
  import opened Wrappers
  import Strings

  /** The shortest password the page accepts. */
  const MinLength: nat := 8

  /** The text the page falls back to when the auth service reports an error without a
      message ("an error occurred while changing the password"). */
  const DefaultFailure: string := "حدث خطأ أثناء تغيير كلمة المرور"

  /** The error line shown under the form. */
  datatype PageError =
    | NoError
    | InvalidLink
    | Mismatch
    | TooShort
    | UpdateFailed(message: string)

  /** The error set on load: a link without an access token in its hash is rejected. */
  function LinkError(hash: string): (e: PageError)
    ensures e == InvalidLink <==> forall j :: !Strings.OccursAt(hash, "access_token", j)
    ensures e == NoError || e == InvalidLink
  {
    if hash == "" || !Strings.Contains(hash, "access_token") then InvalidLink else NoError
  }

  /** The `!hash` test adds nothing: an empty hash has no access token either. */
  lemma EmptyHashIsInvalid()
    ensures LinkError("") == InvalidLink
  {
  }

  /** What one submit leads to: the error shown afterwards, whether the auth service was
      asked to change the password, and whether the page moved on to the login page. */
  datatype Outcome = Outcome(error: PageError, updateCalled: bool, toLogin: bool)

  /** `handleSubmit`. `update` is the auth service's answer had it been asked: None for
      success, Some(message) for an error carrying that message. */
  function Submit(password: string, confirmation: string, update: Option<string>): (o: Outcome)
    ensures o.updateCalled <==> password == confirmation && |password| >= MinLength
    ensures password != confirmation ==> o.error == Mismatch
    ensures password == confirmation && |password| < MinLength ==> o.error == TooShort
    ensures o.toLogin <==> o.updateCalled && update.None?
    ensures o.error == NoError <==> o.toLogin
    ensures o.error != InvalidLink
  {
    var cleared := NoError;
    if password != confirmation then Outcome(Mismatch, false, false)
    else if |password| < MinLength then Outcome(TooShort, false, false)
    else match update
      case None => Outcome(cleared, true, true)
      case Some(message) =>
        Outcome(UpdateFailed(if message == "" then DefaultFailure else message), true, false)
  }

  /** A short pair that differs is reported as a mismatch, not as too short: the
      comparison comes first. */
  lemma MismatchCheckedFirst(password: string, confirmation: string, update: Option<string>)
    requires password != confirmation && |password| < MinLength
    ensures Submit(password, confirmation, update).error == Mismatch
  {
  }

  /** A failed change always shows some message. */
  lemma FailureHasMessage(password: string, update: Option<string>)
    requires |password| >= MinLength && update.Some?
    ensures Submit(password, password, update).error.UpdateFailed?
    ensures Submit(password, password, update).error.message != ""
  {
  }
}

=== FILE: seqs.dfy ===
/** Order-preserving filtering and real-valued sums over sequences, with the facts
    the rest of the model needs about them. */
module Seqs {

  /** The elements of `s` satisfying `keep`, in their original order
      (JavaScript's `Array.prototype.filter`). */
  function Filter<T>(s: seq<T>, keep: T -> bool): (r: seq<T>)
    ensures |r| <= |s|
    ensures forall i :: 0 <= i < |r| ==> keep(r[i])
  {
    if |s| == 0 then []
    else (if keep(s[0]) then [s[0]] else []) + Filter(s[1..], keep)
  }

  /** The sum of `f` over `s`, taken left to right from 0 (a `reduce` with initial value 0). */
  function Sum<T>(s: seq<T>, f: T -> real): real
  {
    if |s| == 0 then 0.0 else f(s[0]) + Sum(s[1..], f)
  }

  lemma {:induction false} FilterMembership<T>(s: seq<T>, keep: T -> bool, x: T)
    ensures x in Filter(s, keep) <==> x in s && keep(x)
  {
    if |s| > 0 {
      FilterMembership(s[1..], keep, x);
      assert s == [s[0]] + s[1..];
    }
  }

  lemma {:induction false} FilterAppend<T>(s: seq<T>, t: seq<T>, keep: T -> bool)
    ensures Filter(s + t, keep) == Filter(s, keep) + Filter(t, keep)
  {
    if |s| == 0 {
      assert s + t == t;
    } else {
      assert (s + t)[1..] == s[1..] + t;
      FilterAppend(s[1..], t, keep);
    }
  }

  /** Filtering with a predicate every element satisfies returns the sequence itself. */
  lemma {:induction false} FilterAll<T>(s: seq<T>, keep: T -> bool)
    requires forall i :: 0 <= i < |s| ==> keep(s[i])
    ensures Filter(s, keep) == s
  {
    if |s| > 0 {
      FilterAll(s[1..], keep);
      assert s == [s[0]] + s[1..];
    }
  }

  /** Filtering with a predicate no element satisfies returns the empty sequence. */
  lemma {:induction false} FilterNone<T>(s: seq<T>, keep: T -> bool)
    requires forall i :: 0 <= i < |s| ==> !keep(s[i])
    ensures Filter(s, keep) == []
  {
    if |s| > 0 {
      FilterNone(s[1..], keep);
    }
  }

  /** Two filters by predicates that never hold together select at most |s| elements in all. */
  lemma {:induction false} DisjointFilters<T>(s: seq<T>, p: T -> bool, q: T -> bool)
    requires forall i :: 0 <= i < |s| ==> !(p(s[i]) && q(s[i]))
    ensures |Filter(s, p)| + |Filter(s, q)| <= |s|
  {
    if |s| > 0 {
      DisjointFilters(s[1..], p, q);
    }
  }

  lemma {:induction false} SumAppend<T>(s: seq<T>, t: seq<T>, f: T -> real)
    ensures Sum(s + t, f) == Sum(s, f) + Sum(t, f)
  {
    if |s| == 0 {
      assert s + t == t;
    } else {
      assert (s + t)[1..] == s[1..] + t;
      SumAppend(s[1..], t, f);
    }
  }

  /** A sum of terms bounded pointwise is bounded by the sum of the bounds. */
  lemma {:induction false} SumMonotone<T>(s: seq<T>, f: T -> real, g: T -> real)
    requires forall i :: 0 <= i < |s| ==> f(s[i]) <= g(s[i])
    ensures Sum(s, f) <= Sum(s, g)
  {
    if |s| > 0 {
      SumMonotone(s[1..], f, g);
    }
  }

  lemma {:induction false} SumNonNegative<T>(s: seq<T>, f: T -> real)
    requires forall i :: 0 <= i < |s| ==> 0.0 <= f(s[i])
    ensures 0.0 <= Sum(s, f)
  {
    if |s| > 0 {
      SumNonNegative(s[1..], f);
    }
  }

  /** Dropping elements from a sum of non-negative terms cannot increase it. */
  lemma {:induction false} FilteredSumBound<T>(s: seq<T>, keep: T -> bool, f: T -> real)
    requires forall i :: 0 <= i < |s| ==> 0.0 <= f(s[i])
    ensures Sum(Filter(s, keep), f) <= Sum(s, f)
  {
    if |s| > 0 {
      FilteredSumBound(s[1..], keep, f);
      if keep(s[0]) {
        assert Filter(s, keep) == [s[0]] + Filter(s[1..], keep);
        assert ([s[0]] + Filter(s[1..], keep))[1..] == Filter(s[1..], keep);
      } else {
        assert Filter(s, keep) == Filter(s[1..], keep);
      }
    }
  }

  /** Filtering by `keep` then by `inner` equals filtering by their conjunction,
      so a stricter predicate selects a sub-sum. */
  lemma {:induction false} NestedFilterSumBound<T>(s: seq<T>, keep: T -> bool, inner: T -> bool, f: T -> real)
    requires forall i :: 0 <= i < |s| ==> 0.0 <= f(s[i])
    requires forall i :: 0 <= i < |s| ==> inner(s[i]) ==> keep(s[i])
    ensures Sum(Filter(s, inner), f) <= Sum(Filter(s, keep), f)
  {
    if |s| > 0 {
      NestedFilterSumBound(s[1..], keep, inner, f);
      var a := Filter(s[1..], inner);
      var b := Filter(s[1..], keep);
      if inner(s[0]) {
        assert Filter(s, inner) == [s[0]] + a;
        assert Filter(s, keep) == [s[0]] + b;
        assert ([s[0]] + a)[1..] == a;
        assert ([s[0]] + b)[1..] == b;
      } else if keep(s[0]) {
        assert Filter(s, inner) == a;
        assert Filter(s, keep) == [s[0]] + b;
        assert ([s[0]] + b)[1..] == b;
      } else {
        assert Filter(s, inner) == a;
        assert Filter(s, keep) == b;
      }
    }
  }
}

=== FILE: settings.dfy ===
/** The settings page: profile fields, notification switches, display choices, and the
    theme class put on the document root. Each group of settings is a key-to-value map, as
    the page's state objects are updated by key. */
module Settings {
  type Profile = map<string, string>
  type Flags = map<string, bool>
  type Display = map<string, string>

  /** The switches the page starts with. */
  const InitialFlags: Flags := map[
    "emailNotifications" := true,
    "projectReminders" := true,
    "paymentAlerts" := true,
    "weeklyReports" := false]

  /** The display choices the page starts with. */
  const InitialDisplay: Display := map["theme" := "light", "currency" := "usd", "dateFormat" := "dd/mm/yyyy"]

  /** `handleNotificationToggle`: `{ ...prev, [key]: !prev[key] }`. A key that is not there
      reads as undefined, which negates to true. */
  function Toggle(flags: Flags, key: string): (r: Flags)
    ensures r.Keys == flags.Keys + {key}
    ensures key in flags ==> r[key] == !flags[key]
    ensures key !in flags ==> r[key]
    ensures forall k :: k in flags && k != key ==> k in r && r[k] == flags[k]
  {
    flags[key := !(key in flags && flags[key])]
  }

  /** Flipping a switch twice restores the settings exactly. */
  lemma ToggleTwice(flags: Flags, key: string)
    requires key in flags
    ensures Toggle(Toggle(flags, key), key) == flags
  {
    var twice := Toggle(Toggle(flags, key), key);
    assert twice.Keys == flags.Keys;
    assert forall k :: k in flags ==> twice[k] == flags[k];
  }

  /** `handleProfileChange` and `handleDisplayChange`: `{ ...prev, [key]: value }`. */
  function SetField(m: map<string, string>, key: string, value: string): (r: map<string, string>)
    ensures r.Keys == m.Keys + {key}
    ensures key in r && r[key] == value
    ensures forall k :: k in m && k != key ==> k in r && r[k] == m[k]
  {
    m[key := value]
  }

  /** The two classes a theme can put on the root. */
  const Light: string := "light"
  const Dark: string := "dark"

  /** The class a theme choice stands for: "system" follows the platform's dark-mode
      preference, any other choice is used as it is. */
  function Resolve(theme: string, prefersDark: bool): (c: string)
    ensures theme == "system" ==> (c == Dark <==> prefersDark)
    ensures theme == "system" ==> c == Light || c == Dark
    ensures theme != "system" ==> c == theme
  {
    if theme == "system" then (if prefersDark then Dark else Light) else theme
  }

  /** The theme effect: remove both theme classes from the root, then add the resolved one. */
  function ApplyTheme(classes: set<string>, theme: string, prefersDark: bool): (r: set<string>)
    ensures Resolve(theme, prefersDark) in r
    ensures forall c :: c != Light && c != Dark && c != Resolve(theme, prefersDark) ==> (c in r <==> c in classes)
  {
    (classes - {Light, Dark}) + {Resolve(theme, prefersDark)}
  }

  /** For each theme the page offers, the root ends up with exactly one of the two theme
      classes, whatever it had before. */
  lemma ExactlyOneThemeClass(classes: set<string>, theme: string, prefersDark: bool)
    requires theme == "light" || theme == "dark" || theme == "system"
    ensures (Light in ApplyTheme(classes, theme, prefersDark)) != (Dark in ApplyTheme(classes, theme, prefersDark))
    ensures theme == "system" ==> (Dark in ApplyTheme(classes, theme, prefersDark) <==> prefersDark)
  {
  }

  /** Applying the same theme again changes nothing. */
  lemma ApplyThemeIdempotent(classes: set<string>, theme: string, prefersDark: bool)
    ensures ApplyTheme(ApplyTheme(classes, theme, prefersDark), theme, prefersDark) == ApplyTheme(classes, theme, prefersDark)
  {
  }
}

=== FILE: sidebar.dfy ===
/** The sidebar's navigation items and which of them is highlighted for the current path. */
module Sidebar {
  import Strings

  datatype Route = Dashboard | Projects | Finances | Analytics | Notifications | Settings

  /** The navigation items, top to bottom. */
  const Routes: seq<Route> := [Dashboard, Projects, Finances, Analytics, Notifications, Settings]

  function Href(r: Route): string {
    match r
    case Dashboard => "/"
    case Projects => "/projects"
    case Finances => "/finances"
    case Analytics => "/analytics"
    case Notifications => "/notifications"
    case Settings => "/settings"
  }

  /** The dashboard item is highlighted on the root path only; every other item on any path
      that starts with its link. */
  predicate Active(r: Route, pathname: string)
    ensures Active(r, pathname) ==> Strings.StartsWith(pathname, Href(r))
    ensures r == Dashboard ==> (Active(r, pathname) <==> pathname == "/")
    ensures r != Dashboard && Strings.StartsWith(pathname, Href(r)) ==> Active(r, pathname)
  {
    if r == Dashboard then pathname == "/" else Strings.StartsWith(pathname, Href(r))
  }

  /** Everything the sidebar links to: the navigation items and, below them, logout. */
  datatype Item = Nav(route: Route) | Logout

  /** The logout link is rendered without an `active` flag, which reads as false. */
  predicate Highlighted(item: Item, pathname: string) {
    match item
    case Nav(r) => Active(r, pathname)
    case Logout => false
  }

  /** The highlighted items for a path, in sidebar order. */
  function ActiveRoutes(pathname: string): (rs: seq<Route>)
    ensures forall r :: r in rs <==> Active(r, pathname)
    ensures |rs| <= 1
  {
    var rs := if pathname == "/" then [Dashboard]
      else if Strings.StartsWith(pathname, "/projects") then [Projects]
      else if Strings.StartsWith(pathname, "/finances") then [Finances]
      else if Strings.StartsWith(pathname, "/analytics") then [Analytics]
      else if Strings.StartsWith(pathname, "/notifications") then [Notifications]
      else if Strings.StartsWith(pathname, "/settings") then [Settings]
      else [];
    assert forall r :: r != Dashboard && Active(r, pathname) ==> pathname[1] == Href(r)[1];
    rs
  }

  /** Two different items are never highlighted together. */
  lemma AtMostOneActive(pathname: string, r1: Route, r2: Route)
    requires Active(r1, pathname) && Active(r2, pathname)
    ensures r1 == r2
  {
    assert r1 in ActiveRoutes(pathname) && r2 in ActiveRoutes(pathname);
  }

  /** A sub-page of a section keeps that section highlighted. */
  lemma SubPageKeepsSection(r: Route, suffix: string)
    requires r != Dashboard
    ensures Active(r, Href(r) + suffix)
  {
    assert (Href(r) + suffix)[..|Href(r)|] == Href(r);
  }

  /** Only a navigation item on the active list is ever highlighted; logout never is. */
  lemma LogoutNeverHighlighted(pathname: string, item: Item)
    requires Highlighted(item, pathname)
    ensures item.Nav? && item.route in ActiveRoutes(pathname)
  {
  }

  /** Every path starts with "/", yet the dashboard is highlighted on the root alone:
      a section's page highlights that section and not the dashboard. */
  lemma DashboardOnlyAtRoot(r: Route, suffix: string)
    requires r != Dashboard
    ensures Strings.StartsWith(Href(r) + suffix, Href(Dashboard))
    ensures !Active(Dashboard, Href(r) + suffix)
    ensures Active(r, Href(r) + suffix)
  {
    SubPageKeepsSection(r, suffix);
    assert (Href(r) + suffix)[..1] == Href(r)[..1];
  }

  /** The new-project page highlights Projects and nothing else. */
  lemma NewProjectPage()
    ensures ActiveRoutes("/projects/new") == [Projects]
  {
    assert Strings.StartsWith("/projects/new", "/projects") by {
      SubPageKeepsSection(Projects, "/new");
    }
  }
}

=== FILE: strings.dfy ===
/** The few string operations the application relies on: prefix tests, substring search,
    first-occurrence replacement and first-letter capitalisation. */
module Strings {
  import opened Wrappers

  /** `s.startsWith(prefix)`. */
  predicate StartsWith(s: string, prefix: string) {
    |prefix| <= |s| && s[..|prefix|] == prefix
  }

  /** `pat` occurs in `s` starting at index `i`. */
  predicate OccursAt(s: string, pat: string, i: int) {
    0 <= i && i + |pat| <= |s| && s[i..i + |pat|] == pat
  }

  /** The first index at or after `from` where `pat` occurs in `s`. */
  function FindFrom(s: string, pat: string, from: nat): (r: Option<nat>)
    ensures r.Some? ==> from <= r.value && OccursAt(s, pat, r.value)
    ensures r.Some? ==> forall j :: from <= j < r.value ==> !OccursAt(s, pat, j)
    ensures r.None? ==> forall j :: from <= j ==> !OccursAt(s, pat, j)
    decreases |s| - from
  {
    if from + |pat| > |s| then None
    else if OccursAt(s, pat, from) then Some(from)
    else FindFrom(s, pat, from + 1)
  }

  /** `s.indexOf(pat)`, with None in place of -1. */
  function IndexOf(s: string, pat: string): (r: Option<nat>)
    ensures r.Some? ==> OccursAt(s, pat, r.value) && forall j :: 0 <= j < r.value ==> !OccursAt(s, pat, j)
    ensures r.None? ==> forall j :: !OccursAt(s, pat, j)
  {
    FindFrom(s, pat, 0)
  }

  /** The first occurrence is the one `IndexOf` finds. */
  lemma IndexOfFirst(s: string, pat: string, i: nat)
    requires OccursAt(s, pat, i)
    requires forall j :: 0 <= j < i ==> !OccursAt(s, pat, j)
    ensures IndexOf(s, pat) == Some(i)
  {
  }

  /** `s.includes(pat)`. */
  predicate Contains(s: string, pat: string) {
    IndexOf(s, pat).Some?
  }

  /** `s.replace(pat, rep)` with a string pattern: only the first occurrence is replaced. */
  function ReplaceFirst(s: string, pat: string, rep: string): (r: string)
    ensures IndexOf(s, pat).None? ==> r == s
  {
    match IndexOf(s, pat)
    case None => s
    case Some(i) => s[..i] + rep + s[i + |pat|..]
  }

  /** The ASCII upper-case form of a letter; every other character is kept. */
  function UpperAscii(c: char): char {
    if 'a' <= c <= 'z' then (c as int - 'a' as int + 'A' as int) as char else c
  }

  /** `s.charAt(0).toUpperCase() + s.slice(1)`. */
  function Capitalize(s: string): (r: string)
    ensures |r| == |s|
    ensures |s| > 0 ==> r[0] == UpperAscii(s[0]) && r[1..] == s[1..]
  {
    if |s| == 0 then "" else [UpperAscii(s[0])] + s[1..]
  }
}

=== FILE: summary.dfy ===
/** The portfolio financial summary: a single pass over the project list that totals
    budgets, counts completed and active projects, prorates what is still owed on
    active projects and adds up the budgets falling due within thirty days. */
module Summary {
  import opened Types
  import Seqs

  /** How far ahead, in days, a due date counts towards projected earnings. */
  const HorizonDays: int := 30

  /** `x` is a whole number of cents. */
  predicate WholeCents(x: real) {
    (x * 100.0).Floor as real == x * 100.0
  }

  /** `Math.round(x * 100) / 100` on exact reals: rounding half up to the cent. */
  function Round2(x: real): (r: real)
    ensures WholeCents(r)
    ensures x - 0.005 < r <= x + 0.005
  {
    var m := (x * 100.0 + 0.5).Floor;
    assert (m as real / 100.0) * 100.0 == m as real;
    m as real / 100.0
  }

  /** Rounding picks the one whole-cent value in the half-open window
      (x - half a cent, x + half a cent]. */
  lemma Round2Unique(x: real, c: real)
    requires WholeCents(c)
    requires x - 0.005 < c <= x + 0.005
    ensures c == Round2(x)
  {
    var n := (c * 100.0).Floor;
    var y := x * 100.0 + 0.5;
    var m := y.Floor;
    assert y - 1.0 < n as real <= y;
    assert m as real <= y < m as real + 1.0;
    assert n <= m && m <= n;
    assert c == n as real / 100.0;
  }

  /** `x` and `y` differ by at most half a cent. */
  predicate WithinHalfCent(x: real, y: real) {
    x - 0.005 <= y <= x + 0.005
  }

  function BudgetOf(p: Project): real {
    p.budget
  }

  /** The share of the budget not yet earned, by completion percentage. */
  function Remaining(p: Project): real {
    p.budget * (1.0 - p.completionPercentage / 100.0)
  }

  predicate IsActiveProject(p: Project) {
    IsActive(p.status)
  }

  predicate IsCompletedProject(p: Project) {
    p.status == Completed
  }

  predicate IsCancelledProject(p: Project) {
    p.status == Cancelled
  }

  /** Active and due no later than `now` plus the horizon. */
  function DueBy(now: int): Project -> bool {
    (p: Project) => IsActive(p.status) && p.dueDate <= now + HorizonDays
  }

  // Reference definitions: each summary figure stated on its own.

  function TotalBudget(ps: seq<Project>): real {
    Seqs.Sum(ps, BudgetOf)
  }

  function ActiveProjects(ps: seq<Project>): seq<Project> {
    Seqs.Filter(ps, IsActiveProject)
  }

  function CompletedProjects(ps: seq<Project>): seq<Project> {
    Seqs.Filter(ps, IsCompletedProject)
  }

  function ActiveBudget(ps: seq<Project>): real {
    Seqs.Sum(ActiveProjects(ps), BudgetOf)
  }

  function PendingPayments(ps: seq<Project>): real {
    Seqs.Sum(ActiveProjects(ps), Remaining)
  }

  function ProjectedEarnings(ps: seq<Project>, now: int): real {
    Seqs.Sum(Seqs.Filter(ps, DueBy(now)), BudgetOf)
  }

  /** The unrounded reference summary. */
  function Reference(ps: seq<Project>, now: int): FinancialSummary {
    FinancialSummary(
      TotalBudget(ps), PendingPayments(ps), ProjectedEarnings(ps, now),
      |CompletedProjects(ps)|, |ActiveProjects(ps)|)
  }

  // The computation as the application performs it.

  /** One iteration of the loop body over a project: the budget always counts towards
      the total, the project raises exactly one count unless it is cancelled, and only
      an active project can add to the money still owed or falling due. */
  function Step(acc: FinancialSummary, p: Project, now: int): (r: FinancialSummary)
    ensures r.totalPortfolioValue == acc.totalPortfolioValue + p.budget
    ensures r.completedProjects + r.activeProjects
            == acc.completedProjects + acc.activeProjects + (if p.status == Cancelled then 0 else 1)
    ensures !IsActive(p.status) ==> r.pendingPayments == acc.pendingPayments
                                    && r.projectedEarnings == acc.projectedEarnings
    ensures r.projectedEarnings == acc.projectedEarnings
            || r.projectedEarnings == acc.projectedEarnings + p.budget
  {
    var acc := acc.(totalPortfolioValue := acc.totalPortfolioValue + p.budget);
    if p.status == Completed then
      acc.(completedProjects := acc.completedProjects + 1)
    else if p.status == Pending || p.status == InProgress then
      var percentRemaining := 1.0 - p.completionPercentage / 100.0;
      var acc := acc.(
        activeProjects := acc.activeProjects + 1,
        pendingPayments := acc.pendingPayments + p.budget * percentRemaining);
      if p.dueDate <= now + HorizonDays then
        acc.(projectedEarnings := acc.projectedEarnings + p.budget)
      else acc
    else
      assert p.status == Cancelled;
      acc
  }

  /** The loop over `ps` in order, starting from the zero summary. */
  function Accumulate(ps: seq<Project>, now: int): (r: FinancialSummary)
    ensures r.completedProjects + r.activeProjects <= |ps|
  {
    if |ps| == 0 then ZeroSummary
    else Step(Accumulate(ps[..|ps| - 1], now), ps[|ps| - 1], now)
  }

  /** The three money fields rounded to the cent; the counts are left alone. */
  function RoundMoney(s: FinancialSummary): (r: FinancialSummary)
    ensures r.completedProjects == s.completedProjects && r.activeProjects == s.activeProjects
    ensures r.totalPortfolioValue == Round2(s.totalPortfolioValue)
    ensures r.pendingPayments == Round2(s.pendingPayments)
    ensures r.projectedEarnings == Round2(s.projectedEarnings)
    ensures WholeCents(r.totalPortfolioValue) && WholeCents(r.pendingPayments) && WholeCents(r.projectedEarnings)
    ensures WithinHalfCent(r.totalPortfolioValue, s.totalPortfolioValue)
    ensures WithinHalfCent(r.pendingPayments, s.pendingPayments)
    ensures WithinHalfCent(r.projectedEarnings, s.projectedEarnings)
  {
    s.(totalPortfolioValue := Round2(s.totalPortfolioValue),
       pendingPayments := Round2(s.pendingPayments),
       projectedEarnings := Round2(s.projectedEarnings))
  }

  /** `calculateFinancialSummary(projects)` with the clock reading `now` as a day number. */
  function Calculate(ps: seq<Project>, now: int): (r: FinancialSummary)
    ensures r.totalPortfolioValue == Round2(TotalBudget(ps))
    ensures r.pendingPayments == Round2(PendingPayments(ps))
    ensures r.projectedEarnings == Round2(ProjectedEarnings(ps, now))
    ensures r.completedProjects == |CompletedProjects(ps)|
    ensures r.activeProjects == |ActiveProjects(ps)|
  {
    AccumulateIsReference(ps, now);
    RoundMoney(Accumulate(ps, now))
  }

  lemma SingletonSum(p: Project, f: Project -> real)
    ensures Seqs.Sum([p], f) == f(p)
  {
  }

  /** The one-pass loop computes exactly the reference figures. */
  lemma {:induction false} AccumulateIsReference(ps: seq<Project>, now: int)
    ensures Accumulate(ps, now) == Reference(ps, now)
  {
    if |ps| > 0 {
      var init, p := ps[..|ps| - 1], ps[|ps| - 1];
      assert ps == init + [p];
      AccumulateIsReference(init, now);
      Seqs.SumAppend(init, [p], BudgetOf);
      Seqs.FilterAppend(init, [p], IsActiveProject);
      Seqs.FilterAppend(init, [p], IsCompletedProject);
      Seqs.FilterAppend(init, [p], DueBy(now));
      var a, d := Seqs.Filter([p], IsActiveProject), Seqs.Filter([p], DueBy(now));
      Seqs.SumAppend(ActiveProjects(init), a, BudgetOf);
      Seqs.SumAppend(ActiveProjects(init), a, Remaining);
      Seqs.SumAppend(Seqs.Filter(init, DueBy(now)), d, BudgetOf);
      SingletonSum(p, BudgetOf);
      SingletonSum(p, Remaining);
    }
  }

  /** An empty portfolio yields the initial all-zero summary. */
  lemma CalculateEmpty(now: int)
    ensures Calculate([], now) == ZeroSummary
  {
  }

  /** Rounding to the cent is monotone. */
  lemma Round2Monotone(x: real, y: real)
    requires x <= y
    ensures Round2(x) <= Round2(y)
  {
    assert (x * 100.0 + 0.5).Floor <= (y * 100.0 + 0.5).Floor;
  }

  /** A whole number of cents is left unchanged by rounding. */
  lemma Round2Cents(cents: int)
    ensures Round2(cents as real / 100.0) == cents as real / 100.0
  {
    var x := cents as real / 100.0;
    assert x * 100.0 + 0.5 == cents as real + 0.5;
    var f := (cents as real + 0.5).Floor;
    assert cents - 1 < f <= cents;
    assert f == cents;
  }

  /** Every project is exactly one of completed, active or cancelled, so the three
      selections together have the size of the list; cancelled projects count in neither. */
  lemma {:induction false} StatusPartition(ps: seq<Project>)
    ensures |CompletedProjects(ps)| + |ActiveProjects(ps)|
            + |Seqs.Filter(ps, IsCancelledProject)| == |ps|
  {
    if |ps| > 0 {
      StatusPartition(ps[1..]);
    }
  }

  /** The two counts of the summary never exceed the number of projects. */
  lemma CountsWithinTotal(ps: seq<Project>, now: int)
    ensures Calculate(ps, now).completedProjects + Calculate(ps, now).activeProjects <= |ps|
  {
    StatusPartition(ps);
  }

  /** What remains on a budget is between nothing and the whole budget. */
  lemma RemainingWithinBudget(p: Project)
    requires 0.0 <= p.budget && 0.0 <= p.completionPercentage <= 100.0
    ensures 0.0 <= Remaining(p) <= p.budget
  {
    var f := 1.0 - p.completionPercentage / 100.0;
    assert 0.0 <= f <= 1.0;
    assert p.budget * f <= p.budget * 1.0;
  }

  /** The projects a filter selects all satisfy any property every project has. */
  lemma FilterPreserves(ps: seq<Project>, keep: Project -> bool, good: Project -> bool)
    requires forall i :: 0 <= i < |ps| ==> good(ps[i])
    ensures forall i :: 0 <= i < |Seqs.Filter(ps, keep)| ==> good(Seqs.Filter(ps, keep)[i])
  {
    var r := Seqs.Filter(ps, keep);
    forall i | 0 <= i < |r|
      ensures good(r[i])
    {
      Seqs.FilterMembership(ps, keep, r[i]);
    }
  }

  predicate WellFormed(p: Project) {
    0.0 <= p.budget && 0.0 <= p.completionPercentage <= 100.0
  }

  predicate NonNegativeBudget(p: Project) {
    0.0 <= p.budget
  }

  /** With non-negative budgets and completion within [0, 100], pending payments lie
      between zero and the total budget of the active projects. */
  lemma {:induction false} PendingPaymentsBounds(ps: seq<Project>)
    requires forall i :: 0 <= i < |ps| ==> WellFormed(ps[i])
    ensures 0.0 <= PendingPayments(ps) <= ActiveBudget(ps)
  {
    var act := ActiveProjects(ps);
    FilterPreserves(ps, IsActiveProject, WellFormed);
    forall i | 0 <= i < |act|
      ensures 0.0 <= Remaining(act[i]) <= BudgetOf(act[i])
    {
      RemainingWithinBudget(act[i]);
    }
    Seqs.SumNonNegative(act, Remaining);
    Seqs.SumMonotone(act, Remaining, BudgetOf);
  }

  /** Projected earnings never exceed the active projects' total budget. */
  lemma ProjectedWithinActiveBudget(ps: seq<Project>, now: int)
    requires forall i :: 0 <= i < |ps| ==> 0.0 <= ps[i].budget
    ensures 0.0 <= ProjectedEarnings(ps, now) <= ActiveBudget(ps)
  {
    Seqs.NestedFilterSumBound(ps, IsActiveProject, DueBy(now), BudgetOf);
    FilterPreserves(ps, DueBy(now), NonNegativeBudget);
    Seqs.SumNonNegative(Seqs.Filter(ps, DueBy(now)), BudgetOf);
  }

  /** A later clock can only bring more due dates into the horizon. */
  lemma ProjectedMonotoneInNow(ps: seq<Project>, now1: int, now2: int)
    requires now1 <= now2
    requires forall i :: 0 <= i < |ps| ==> 0.0 <= ps[i].budget
    ensures ProjectedEarnings(ps, now1) <= ProjectedEarnings(ps, now2)
  {
    Seqs.NestedFilterSumBound(ps, DueBy(now2), DueBy(now1), BudgetOf);
  }

  /** The bounds carry over to the rounded figures the dashboard shows. */
  lemma CalculateBounds(ps: seq<Project>, now: int)
    requires forall i :: 0 <= i < |ps| ==> WellFormed(ps[i])
    ensures 0.0 <= Calculate(ps, now).pendingPayments <= Round2(ActiveBudget(ps))
    ensures 0.0 <= Calculate(ps, now).projectedEarnings <= Round2(ActiveBudget(ps))
  {
    PendingPaymentsBounds(ps);
    ProjectedWithinActiveBudget(ps, now);
    Round2Monotone(0.0, PendingPayments(ps));
    Round2Monotone(PendingPayments(ps), ActiveBudget(ps));
    Round2Monotone(0.0, ProjectedEarnings(ps, now));
    Round2Monotone(ProjectedEarnings(ps, now), ActiveBudget(ps));
    Round2Cents(0);
  }
}

=== FILE: summary_function.dfy ===
/** The server-side summary endpoint: it authenticates the caller, loads the caller's
    projects (and their expenses, which it never uses), and runs the same one-pass
    summary loop as the client over the stored rows. */
module SummaryFunction {
  import opened Wrappers
  import opened Types
  import Api
  import Summary
  import Seqs

  /** The parts of an incoming request the endpoint looks at: the HTTP method and the
      user the authorization header resolves to, if any. */
  datatype Request = Request(httpMethod: string, user: Option<string>)

  datatype Body = Text(text: string) | SummaryBody(summary: FinancialSummary) | ErrorBody(message: string)

  datatype Response = Response(status: int, body: Body)

  /** The rows of the `projects` table owned by `userId` (`.eq("user_id", user.id)`). */
  function OwnedBy(table: seq<Api.ProjectRow>, userId: string): (rows: seq<Api.ProjectRow>)
    ensures forall i :: 0 <= i < |rows| ==> rows[i].user_id == userId
    ensures forall x :: x in rows <==> x in table && x.user_id == userId
  {
    var rows := Seqs.Filter(table, Owner(userId));
    assert forall x :: x in rows <==> x in table && x.user_id == userId by {
      forall x
        ensures x in rows <==> x in table && x.user_id == userId
      {
        Seqs.FilterMembership(table, Owner(userId), x);
      }
    }
    rows
  }

  /** The test `user_id = userId`. */
  function Owner(userId: string): Api.ProjectRow -> bool {
    (r: Api.ProjectRow) => r.user_id == userId
  }

  /** The summary loop over stored rows, rounded at the end; it agrees with the
      client's `calculateFinancialSummary` on the same projects. */
  method ComputeSummary(rows: seq<Api.ProjectRow>, now: int) returns (s: FinancialSummary)
    ensures s == Summary.Calculate(Api.ToProjects(rows), now)
  {
    var acc := ZeroSummary;
    var i := 0;
    assert Api.ToProjects(rows[..0]) == [];
    assert acc == Summary.Accumulate(Api.ToProjects(rows[..0]), now);
    while i < |rows|
      invariant 0 <= i <= |rows|
      invariant acc == Summary.Accumulate(Api.ToProjects(rows[..i]), now)
    {
      ghost var before := acc;
      var project := rows[i];
      ghost var p := Api.ToProject(project);
      // `parseFloat` of a numeric column gives back the number itself.
      var budget := project.budget;
      acc := acc.(totalPortfolioValue := acc.totalPortfolioValue + budget);
      if project.status == Completed {
        acc := acc.(completedProjects := acc.completedProjects + 1);
      } else if project.status == Pending || project.status == InProgress {
        acc := acc.(activeProjects := acc.activeProjects + 1);
        var percentRemaining := 1.0 - project.completion_percentage / 100.0;
        assert budget * percentRemaining == Summary.Remaining(p);
        acc := acc.(pendingPayments := acc.pendingPayments + budget * percentRemaining);
        if project.due_date <= now + Summary.HorizonDays {
          acc := acc.(projectedEarnings := acc.projectedEarnings + budget);
        }
      }
      StepIsServerIteration(before, project, now);
      assert acc == Summary.Step(before, p, now);
      NextRow(rows, i, now);
      assert acc == Summary.Accumulate(Api.ToProjects(rows[..i + 1]), now);
      i := i + 1;
    }
    assert rows[..i] == rows;
    s := Summary.RoundMoney(acc);
  }

  /** The client's loop step over a converted row, spelled out on the row's columns. */
  lemma StepIsServerIteration(acc: FinancialSummary, r: Api.ProjectRow, now: int)
    ensures var s := Summary.Step(acc, Api.ToProject(r), now);
      var active := r.status == Pending || r.status == InProgress;
      && s.totalPortfolioValue == acc.totalPortfolioValue + r.budget
      && s.completedProjects == acc.completedProjects + (if r.status == Completed then 1 else 0)
      && s.activeProjects == acc.activeProjects + (if active then 1 else 0)
      && s.pendingPayments == acc.pendingPayments
           + (if active then r.budget * (1.0 - r.completion_percentage / 100.0) else 0.0)
      && s.projectedEarnings == acc.projectedEarnings
           + (if active && r.due_date <= now + Summary.HorizonDays then r.budget else 0.0)
  {
  }

  /** One more row extends the client's loop by one step over the converted row. */
  lemma NextRow(rows: seq<Api.ProjectRow>, i: int, now: int)
    requires 0 <= i < |rows|
    ensures Summary.Accumulate(Api.ToProjects(rows[..i + 1]), now)
            == Summary.Step(Summary.Accumulate(Api.ToProjects(rows[..i]), now), Api.ToProject(rows[i]), now)
  {
    var xs := Api.ToProjects(rows[..i + 1]);
    assert xs[..i] == Api.ToProjects(rows[..i]);
  }

  /** The endpoint's handler. The projects query and the expenses query are given as
      their outcomes over the whole tables; the expenses query runs only when the caller
      owns at least one project. */
  method Handle(req: Request, projectsTable: Result<seq<Api.ProjectRow>, string>,
                expensesQuery: Result<seq<Api.ExpenseRow>, string>, now: int)
    returns (resp: Response)
    ensures req.httpMethod == "OPTIONS" ==> resp == Response(200, Text("ok"))
    ensures req.httpMethod != "OPTIONS" && req.user.None? ==>
              resp == Response(401, ErrorBody("Unauthorized"))
    ensures req.httpMethod != "OPTIONS" && req.user.Some? && projectsTable.Failure? ==>
              resp == Response(400, ErrorBody(projectsTable.error))
    ensures req.httpMethod != "OPTIONS" && req.user.Some? && projectsTable.Success? ==>
              var owned := OwnedBy(projectsTable.value, req.user.value);
              if |owned| > 0 && expensesQuery.Failure? then
                resp == Response(400, ErrorBody(expensesQuery.error))
              else
                resp == Response(200, SummaryBody(Summary.Calculate(Api.ToProjects(owned), now)))
  {
    if req.httpMethod == "OPTIONS" {
      return Response(200, Text("ok"));
    }
    if req.user.None? {
      return Response(401, ErrorBody("Unauthorized"));
    }
    if projectsTable.Failure? {
      return Response(400, ErrorBody(projectsTable.error));
    }
    var projects := OwnedBy(projectsTable.value, req.user.value);
    if |projects| > 0 && expensesQuery.Failure? {
      return Response(400, ErrorBody(expensesQuery.error));
    }
    var summary := ComputeSummary(projects, now);
    return Response(200, SummaryBody(summary));
  }
}

=== FILE: types.dfy ===
/** The records of the application: projects, their expenses and the derived
    portfolio summary. Money is a real number, calendar dates are day numbers and
    timestamps are integer time values. */
module Types {
  import opened Wrappers

  /** A project's lifecycle state. */
  datatype Status = Pending | InProgress | Completed | Cancelled

  /** The wire name of a status. */
  function StatusName(s: Status): string {
    match s
    case Pending => "pending"
    case InProgress => "in-progress"
    case Completed => "completed"
    case Cancelled => "cancelled"
  }

  /** The status a wire name denotes, if any. */
  function ParseStatus(name: string): Option<Status> {
    if name == "pending" then Some(Pending)
    else if name == "in-progress" then Some(InProgress)
    else if name == "completed" then Some(Completed)
    else if name == "cancelled" then Some(Cancelled)
    else None
  }

  /** Pending and in-progress projects are the "active" ones of the dashboard. */
  predicate IsActive(s: Status) {
    s == Pending || s == InProgress
  }

  /** A cost entry. It carries no reference to its project: ownership is by nesting
      in `Project.expenses`. */
  datatype Expense = Expense(
    id: string,
    description: string,
    amount: real,
    date: int,
    category: string)

  /** A billable unit of client work. `completionPercentage` is unbounded here; only the
      progress dialog keeps it in [0, 100]. */
  datatype Project = Project(
    id: string,
    title: string,
    client: string,
    description: string,
    startDate: int,
    dueDate: int,
    budget: real,
    hourlyRate: Option<real>,
    hoursWorked: Option<real>,
    expenses: Option<seq<Expense>>,
    status: Status,
    completionPercentage: real,
    category: string,
    createdAt: int,
    updatedAt: int)

  /** The dashboard's portfolio figures: three money fields and two counts. */
  datatype FinancialSummary = FinancialSummary(
    totalPortfolioValue: real,
    pendingPayments: real,
    projectedEarnings: real,
    completedProjects: nat,
    activeProjects: nat)

  /** The summary shown before anything is loaded, and the fallback on failure. */
  const ZeroSummary := FinancialSummary(0.0, 0.0, 0.0, 0, 0)

  /** Every field of the summary is zero (`Object.values(s).every(v => v === 0)`). */
  predicate AllZero(s: FinancialSummary) {
    s.totalPortfolioValue == 0.0 && s.pendingPayments == 0.0 && s.projectedEarnings == 0.0
    && s.completedProjects == 0 && s.activeProjects == 0
  }

  /** The expenses of a project, an absent list read as empty (`p.expenses || []`). */
  function ExpensesOf(p: Project): seq<Expense> {
    p.expenses.GetOr([])
  }

  /** Status names and parsing are inverse: every status has exactly one name
      and distinct statuses have distinct names. */
  lemma StatusNameRoundTrip(s: Status, name: string)
    ensures ParseStatus(StatusName(s)) == Some(s)
    ensures ParseStatus(name) == Some(s) <==> name == StatusName(s)
  {
  }

  /** Only the zero summary has every field zero. */
  lemma AllZeroIsZeroSummary(s: FinancialSummary)
    ensures AllZero(s) <==> s == ZeroSummary
  {
  }
}

=== FILE: wrappers.dfy ===
/** Failure-carrying wrappers shared by every module of the model. */
module Wrappers {

  /** A value that may be absent: the model of an optional field or a nullable column. */
  datatype Option<+T> = None | Some(value: T) {

    /** The wrapped value, or `default` when absent (the `x ?? default` / `x || default` idiom). */
    function GetOr(default: T): T {
      match this
      case Some(v) => v
      case None => default
    }
  }

  /** Either a computed value or the error an operation raised instead. */
  datatype Result<+T, +E> = Success(value: T) | Failure(error: E) {

    predicate IsFailure() {
      Failure?
    }

    function PropagateFailure<U>(): Result<U, E>
      requires Failure?
    {
      Failure(error)
    }

    function Extract(): T
      requires Success?
    {
      value
    }
  }
}
